=== FILE: README.md ===
# Volvo connector for CarConnectivity — a Dafny model

This project models the core of the Volvo connector of CarConnectivity. The
connector polls Volvo's Connected Vehicle API on an interval the host may
change at run time and keeps the host's garage in step with the vehicles on
the account. Every API request goes through one authenticated session. That session carries the vendor API
key, a bearer token, a retry policy and a response cache meant to persist
across restarts (see "## Findings").

The model is functional: every operation is a pure function from the old
state to the new one, and exceptions are `Failure` values of a `Result`.
The modules follow the program's structure:

| module | file | models |
|---|---|---|
| `AuthUtil` | auth_util.dfy | `add_bearer_auth_header` |
| `VolvoSession` | volvo_session.dfy | the session: constructor, `retries` setter, `token`, `add_token`, `request` |
| `SessionManager` | session_manager.dfy | `Service`, `SessionToken`, identifiers, `get_session`, `persist` |
| `ResponseCache` | response_cache.dfy | cache entries and the freshness rule |
| `Fetch` | fetch.dfy | `_fetch_data`: cache decision, reply classification, one re-login on 401 |
| `Vehicles` | vehicles.dfy | `fetch_vehicles`: listing, per-vehicle details, steering mapping, reconciliation |
| `PollLoop` | poll_loop.dfy | `_background_loop` as a one-iteration transition function, and runs of it |
| `Connector` | connector.dfy | the constructor's configuration rules and session setup, one polling cycle, shutdown |
| `Wrappers`, `Json`, `Errors` | | `Option`/`Result`, decoded JSON, the exception classes |

Some parts of the system are not modelled directly and become inputs
instead:

- **Network.** The reply to each URL is a parameter `net: string -> Exchange`.
  An `Exchange` holds the reply to the first GET and the reply the retried
  GET would get after a re-login.
- **Re-login.** Its outcome is a `Login` parameter.
- **SHA-512.** It is a function parameter `digest`.
- **Time.** `now` is integer seconds. One fetch uses a single `now` for both
  the freshness check and the cache write-back.
- **Object identity.** `SessionToken` defines neither equality nor hashing,
  so the session manager's dictionary compares credentials by object
  identity. The model gives each credential an `identity` number to stand
  for that.

In these places the model follows the code:

- **Freshness boundary.** A cached payload is served when
  `captured >= now - max_age`, so the boundary instant still counts as fresh.
- **No data.** JSON `null` and Python's `None` are both `JNull`. A cached
  `None` payload is never served, so its URL is fetched again.
- **Tolerated HTTP error.** It returns the payload the cache lookup read,
  stale or not. It does not return "no data".
- **Stored token.** `get_session` reads the token stored for the identifier
  but seeds the session with the credential's own access token.
- **Session reuse.** Reuse is by credential object, not by digest.
- **Full resync.** It runs on every iteration until it first succeeds, not
  only on the first.
- **Later iterations.** `update_vehicles` calls `decide_state`, which is
  empty, so they make no request at all.

## Model

| member | source | states |
|---|---|---|
| AuthUtil.AddBearerAuthHeader | src/carconnectivity_connectors/volvo/auth/auth_util.py:25-27 | Authorization maps to "Bearer <token>"; the key set is the caller's keys plus Authorization; every other header keeps its value |
| AuthUtil.NoHeadersGivesOnlyAuthorization | src/carconnectivity_connectors/volvo/auth/auth_util.py:25-26 | with no headers (None or empty) the result is exactly the bearer header |
| AuthUtil.OtherHeadersUndisturbed | src/carconnectivity_connectors/volvo/auth/auth_util.py:25-27 | a non-Authorization header is in the result iff it was in the input, with the same value |
| AuthUtil.AddBearerIdempotent | src/carconnectivity_connectors/volvo/auth/auth_util.py:26 | adding the same bearer header twice equals adding it once |
| AuthUtil.LastTokenWins | src/carconnectivity_connectors/volvo/auth/auth_util.py:26 | re-adding with another token gives the same headers as adding only the newer one |
| VolvoSession.NewSession | src/carconnectivity_connectors/volvo/auth/volvo_session.py:26-33 | the session's only header is vcc-api-key with the primary key (secondary ignored); token, timeout and cache are the given ones; no retry adapter |
| VolvoSession.Token | src/carconnectivity_connectors/volvo/auth/volvo_session.py:67-75 | the property returns the session's stored access token |
| VolvoSession.TokenFixedAtConstruction | src/carconnectivity_connectors/volvo/auth/volvo_session.py:30-75 | the token is the constructor's access token, also after any retries setting |
| VolvoSession.SetRetries | src/carconnectivity_connectors/volvo/auth/volvo_session.py:57-65 | the value is always recorded; a truthy value mounts total=n, backoff 0.1, forcelist {500}, blacklist {429}, no raise on status; a falsy one keeps the old adapter; nothing else changes |
| VolvoSession.SetRetriesIsolatesQuota | src/carconnectivity_connectors/volvo/auth/volvo_session.py:58-65 | whatever value is set, 429 is never retried internally and stays visible to the caller; a truthy value makes 500 retryable |
| VolvoSession.SecureTransportIsSchemePrefix | src/carconnectivity_connectors/volvo/auth/volvo_session.py:88-89 | the transport check holds iff the first eight characters, case-folded, are "https://" |
| VolvoSession.PlainHttpIsInsecure | src/carconnectivity_connectors/volvo/auth/volvo_session.py:120-121 | every "http://" URL is refused |
| VolvoSession.AddToken | src/carconnectivity_connectors/volvo/auth/volvo_session.py:120-131 | insecure URI fails with InsecureTransport first; no override and no stored token fails with MissingToken; success iff neither, with URI and body untouched and the override token preferred over the stored one |
| VolvoSession.Request | src/carconnectivity_connectors/volvo/auth/volvo_session.py:88-98 | insecure URL fails before token handling; only InsecureTransport or MissingToken can fail it; the sent request keeps verb, URL and body, carries the bearer header and falls back to the session timeout when none is given |
| VolvoSession.Get | src/carconnectivity_connectors/volvo/connector.py:415 | the fetch's GET succeeds iff the URL is secure and the session has a token; it carries exactly the bearer header and the session timeout |
| SessionManager.TokenText | src/carconnectivity_connectors/volvo/auth/session_manager.py:58-59 | the credential text is primary key, ':', secondary key, ':', access token, at those positions |
| SessionManager.GenerateHash | src/carconnectivity_connectors/volvo/auth/session_manager.py:72-84 | the hash is the digest of the service value followed by the credential text |
| SessionManager.GenerateIdentifier | src/carconnectivity_connectors/volvo/auth/session_manager.py:83-98 | the identifier is the fixed prefix followed by the digest of service value plus credential text |
| SessionManager.IdentifierEqualIffDigestEqual | src/carconnectivity_connectors/volvo/auth/session_manager.py:98 | two identifiers are equal iff their digests are |
| SessionManager.IdentifierDependsOnTextOnly | src/carconnectivity_connectors/volvo/auth/session_manager.py:83-84 | distinct credential objects with the same text share an identifier |
| SessionManager.ServicesSeparateHashInputs | src/carconnectivity_connectors/volvo/auth/session_manager.py:31-36 | different services never give the same digest input |
| SessionManager.ColonInKeysCollides | src/carconnectivity_connectors/volvo/auth/session_manager.py:58-59 | two different credentials whose keys contain ':' get the same identifier |
| SessionManager.IndexOf | src/carconnectivity_connectors/volvo/auth/session_manager.py:114-115 | the key is found iff some registered entry has that service and the same credential object, and the position found holds it |
| SessionManager.RegisterNewKey | src/carconnectivity_connectors/volvo/auth/session_manager.py:137 | registering an unregistered key keeps keys distinct and makes the new entry the one found for it |
| SessionManager.NewRegistry | src/carconnectivity_connectors/volvo/auth/session_manager.py:66-69 | a new manager has no session for any key |
| SessionManager.GetSession | src/carconnectivity_connectors/volvo/auth/session_manager.py:113-138 | a registered key returns its session unchanged; otherwise a non-connected-vehicle service raises ValueError("Unsupported service: <service value>"); on success the key now finds the returned session and both stores are untouched |
| SessionManager.GetSessionCreates | src/carconnectivity_connectors/volvo/auth/session_manager.py:117-137 | a new session uses the credential's token and primary key and the cache stored under the identifier (empty when none), and is appended after the existing ones |
| SessionManager.GetSessionTwiceReuses | src/carconnectivity_connectors/volvo/auth/session_manager.py:114-115 | asking again with the same credential object returns the same session and registers nothing |
| SessionManager.EqualFieldsDistinctObjectsDoNotShare | src/carconnectivity_connectors/volvo/auth/session_manager.py:114-118 | a second credential object with equal fields gets its own session although the identifier is shared |
| SessionManager.Persist | src/carconnectivity_connectors/volvo/auth/session_manager.py:148-153 | persisting changes no live session and stores the last session's identifier in the cache store |
| SessionManager.WriteAll | src/carconnectivity_connectors/volvo/auth/session_manager.py:148-153 | writing the sessions adds exactly their identifiers to each store and keeps every other key |
| SessionManager.WriteAllStores | src/carconnectivity_connectors/volvo/auth/session_manager.py:148-153 | a session no later session shares an identifier with ends with its token and cache stored under its identifier |
| SessionManager.WriteAllLeavesOthers | src/carconnectivity_connectors/volvo/auth/session_manager.py:148-153 | an identifier of no session keeps its presence and value in both stores |
| SessionManager.PersistStoresSession | src/carconnectivity_connectors/volvo/auth/session_manager.py:148-153 | with distinct identifiers, every live session's token and cache are stored under its identifier |
| SessionManager.PersistLeavesOthers | src/carconnectivity_connectors/volvo/auth/session_manager.py:148-153 | identifiers of no live session are untouched in both stores |
| SessionManager.PersistAsShipped | src/carconnectivity_connectors/volvo/auth/session_manager.py:148-152 | as shipped, any live session makes persist raise after writing only the first session's token record; the cache store is never written |
| SessionManager.PersistAsShippedLosesCache | src/carconnectivity_connectors/volvo/auth/session_manager.py:150-153 | as shipped, a session's cache never reaches the cache store, while the corrected persist stores it |
| Fetch.FetchData | src/carconnectivity_connectors/volvo/connector.py:406-452 | at most one re-login and two GETs, a second GET only after a 401 and a re-login; only the cache may change, and only by recording the returned payload under the URL at now |
| Fetch.CacheServedIff | src/carconnectivity_connectors/volvo/connector.py:409-413 | no GET goes out iff not forced, max age set, URL cached with a non-null payload captured at or after now - max_age; with no max age every fetch goes to the network |
| Fetch.RefusedRequestFailsFetch | src/carconnectivity_connectors/volvo/connector.py:414-415 | an insecure URL or a missing token fails the fetch with that error before any GET |
| Fetch.SuccessWritesCache | src/carconnectivity_connectors/volvo/connector.py:417-420 | a 200/207 JSON reply is returned and recorded under the URL at now; no other entry changes |
| Fetch.QuotaExceededSurfaces | src/carconnectivity_connectors/volvo/connector.py:423-425 | a 429 reply raises TooManyRequests with one GET, no re-login and no cache write |
| Fetch.UnauthorizedReauthenticatesOnce | src/carconnectivity_connectors/volvo/connector.py:426-436 | a 401 gives one re-login and one retried GET; its success is handled like a first success, any other status is a retrieval error unless tolerated |
| Fetch.SecondFailureAfterReauth | src/carconnectivity_connectors/volvo/connector.py:429-436 | with the default flags, 401, 204 or 429 after a re-login all end in a retrieval error; no second re-login |
| Fetch.OtherStatusClassified | src/carconnectivity_connectors/volvo/connector.py:421-438 | 204 with allow_empty yields no data; any other unhandled status raises a retrieval error unless tolerated, then returns what the lookup read; the cache is untouched |
| Fetch.ToleratedWithoutLookupIsEmpty | src/carconnectivity_connectors/volvo/connector.py:407-438 | with no max age or a forced fetch, a tolerated error yields no data |
| Fetch.FaultsAreRetrievalErrors | src/carconnectivity_connectors/volvo/connector.py:439-451 | transport faults are retrieval errors; a non-JSON success body yields no data with allow_empty and a retrieval error without |
| Fetch.RefetchWithinMaxAgeIsCached | src/carconnectivity_connectors/volvo/connector.py:409-420 | after a stored fetch, refetching within max age returns the same payload with no GET; after it, a GET goes out |
| Fetch.NullPayloadIsRefetched | src/carconnectivity_connectors/volvo/connector.py:412-420 | a 200 reply of JSON null returns no data and is stored, and the next fetch of the URL goes to the network however soon |
| Fetch.FetchDataAsShipped | src/carconnectivity_connectors/volvo/connector.py:426-428 | as shipped, the fetch re-logs in iff it ends with AttributeError, after exactly one GET; it never makes a second GET |
| Fetch.UnauthorizedIsFatalAsShipped | src/carconnectivity_connectors/volvo/connector.py:426-428 | as shipped, every 401 ends in AttributeError whatever the server would answer next |
| Vehicles.SteeringFrom | src/carconnectivity_connectors/volvo/connector.py:284-294 | Left iff the value is the string LEFT, Right iff it is RIGHT |
| Vehicles.SteeringMapping | src/carconnectivity_connectors/volvo/connector.py:284-294 | LEFT maps to Left and RIGHT to Right, each iff the value is that string; every other value maps to Unknown |
| Vehicles.ApplyDetails | src/carconnectivity_connectors/volvo/connector.py:276-294 | applying details never changes who manages the vehicle; no document or no data member changes nothing |
| Vehicles.DetailsApplied | src/carconnectivity_connectors/volvo/connector.py:276-294 | model year, model and steering are each taken from the document when present and non-null, otherwise kept |
| Vehicles.DetailsSetSteering | src/carconnectivity_connectors/volvo/connector.py:280-294 | a non-null descriptions.steering sets the steering side from it |
| Vehicles.WalkListing | src/carconnectivity_connectors/volvo/connector.py:261-343 | the garage gains exactly the VINs seen; existing vehicles keep their manager and new ones are managed here; a walk without error saw every listed VIN; a VIN-less entry always stops the walk with an error |
| Vehicles.ListedVinsCons | src/carconnectivity_connectors/volvo/connector.py:263-266 | a listing's VINs are its head's VIN plus its tail's VINs |
| Vehicles.RemoveUnlisted | src/carconnectivity_connectors/volvo/connector.py:344-347 | a vehicle is kept iff it was seen or is not managed here, with its value unchanged |
| Vehicles.FetchVehicles | src/carconnectivity_connectors/volvo/connector.py:246-348 | after an error no vehicle is removed; vehicles of other connectors always stay |
| Vehicles.FetchVehiclesReconciles | src/carconnectivity_connectors/volvo/connector.py:255-348 | after success the garage is exactly the listed VINs plus other connectors' vehicles; every managed vehicle is listed; every new one is managed here |
| Vehicles.EmptyListingRemovesManaged | src/carconnectivity_connectors/volvo/connector.py:261-347 | an empty or missing data array removes every managed vehicle and keeps the rest |
| PollLoop.Start | src/carconnectivity_connectors/volvo/connector.py:130-139 | start-up leaves the loop healthy, CONNECTING and with the full resync due |
| PollLoop.React | src/carconnectivity_connectors/volvo/connector.py:157-177 | quota exceeded and only it cools down; retrieval, API-compatibility and temporary-authentication errors retry after the interval; every other exception is fatal |
| PollLoop.Step | src/carconnectivity_connectors/volvo/connector.py:136-182 | stops iff a stop is requested; crashes iff the error is unclassified; CONNECTED iff the work succeeded; healthy is cleared only by a crash; the resync stays due until a success |
| PollLoop.BackoffSelection | src/carconnectivity_connectors/volvo/connector.py:141-180 | quota exceeded waits exactly 900 s; retrieval, API-compatibility and temporary-authentication errors and success wait the interval (300 when unset); success records the update time |
| PollLoop.UnclassifiedIsFatal | src/carconnectivity_connectors/volvo/connector.py:173-177 | any other exception sets ERROR, clears healthy and escapes |
| PollLoop.StepFollowsStateMachine | src/carconnectivity_connectors/volvo/connector.py:136-182 | once started, each iteration follows an allowed state transition and never returns to CONNECTING |
| PollLoop.Run | src/carconnectivity_connectors/volvo/connector.py:140-182 | a run ends DISCONNECTED when stopped, ERROR and unhealthy when crashed, and CONNECTED or ERROR while running; it loses health only by crashing |
| PollLoop.FullSyncUntilFirstSuccess | src/carconnectivity_connectors/volvo/connector.py:138-148 | iteration i runs the full resync iff it was due at the start and no earlier iteration succeeded |
| PollLoop.FirstIterationResyncs | src/carconnectivity_connectors/volvo/connector.py:138-148 | after start-up the first iteration resyncs, and after a successful first one only updates follow |
| Connector.Configure | src/carconnectivity_connectors/volvo/connector.py:92-114 | missing or null credentials raise AuthenticationError in order primary, secondary, token; a given interval below 60 raises ValueError; the default interval is 180; max_age defaults to interval - 1 and a configured one, null included, wins |
| Connector.DefaultMaxAgeRefreshesEachCycle | src/carconnectivity_connectors/volvo/connector.py:107-114 | with the default max age a payload is fresh for the rest of its cycle and stale one interval later |
| Connector.Construct | src/carconnectivity_connectors/volvo/connector.py:117-126 | construction succeeds iff the configuration is valid, with the configuration's error otherwise; the connector's one session is registered under its credential and the interval attribute holds the configured interval |
| Connector.ConstructedSession | src/carconnectivity_connectors/volvo/connector.py:117-126 | the session sends the primary key and configured token, has 3 retries with 429 blacklisted and 500 forced, a 180 s timeout, the stored cache or an empty one, and both stores untouched |
| Connector.Resync | src/carconnectivity_connectors/volvo/connector.py:218-225 | the resync keeps the connector's configuration, credential and token store; other connectors' vehicles stay; after an error nothing is removed |
| Connector.Cycle | src/carconnectivity_connectors/volvo/connector.py:136-182 | a stop or an iteration after the resync changes nothing, the interval attribute included; a successful iteration waits the attribute's current value (300 s when cleared) with the resync done; any iteration waits that or the 900 s cool-down |
| Connector.LaterCyclesAreIdle | src/carconnectivity_connectors/volvo/connector.py:227-244 | after the resync succeeded every iteration succeeds without touching session, cache or garage, and waits the interval attribute's current value |
| Connector.QuotaOnListingCoolsDown | src/carconnectivity_connectors/volvo/connector.py:157-160 | a 429 on the listing during a resync sets ERROR, waits 900 s and keeps the resync due |
| Connector.Shutdown | src/carconnectivity_connectors/volvo/connector.py:211-215 | shutdown keeps the connector's session |
| Connector.ShutdownPersistsSession | src/carconnectivity_connectors/volvo/connector.py:184-190 | with the corrected persist, after shutdown the stores hold the session's token and cache under its identifier; other identifiers are untouched in both stores |

## Left out

- Vehicle images: the `SUPPORT_IMAGES` branch downloads pictures outside the session. It has its own cache logic, and the image codec is outside any model.
- `fetch_position`: nothing in the connector calls it, and it targets another vendor's endpoint.
- Logging, `log_extra_keys` and the elapsed-time record (`_record_elapsed`) have no effect on state.
- Threading: the background thread, `join` and the stop event are modelled by the `stop` input of each iteration. Waiting is represented only by the chosen duration.
- `transaction_end` of the host is not modelled.
- Shutdown's removal of vehicles managed solely by this connector is left out. The garage model records only whether this connector manages a vehicle, not how many connectors do.
- The session's `close` is left out.
- The HTTP client itself is left out: connection pooling, default headers, merging of session and request headers, redirects, and the retry adapter's back-off timing. Replies are inputs, and the retry policy is modelled as the configuration the adapter receives.
- oauthlib's environment override that allows insecure transport is left out. The transport check is always on.
- The lower-casing in the transport check folds ASCII letters only. Python's `lower` also folds letters of other scripts.
- JSON documents of a shape the source would index wrongly (a listing whose `data` is not a list, entries that are not objects, a `vin` that is not a string) are treated as having no such member. The source would raise a `TypeError` or store a non-string VIN instead.
- A URL fetched twice within one cycle is answered the same way both times: `net` is a function of the URL.
- An `interval` of `null` in the configuration would make the source raise `TypeError` on the comparison. The model takes the interval as an integer when present.
- The carconnectivity error classes are outside this model. The loop's classification (`PollLoop.React`) goes by exception name. It assumes that `APIError`, raised for a missing VIN, and `AuthenticationError` are not subclasses of `RetrievalError`, `APICompatibilityError` or `TemporaryAuthenticationError`. Under that assumption both are fatal.
- SessionManager.PersistAsShippedLosesCache: stated only when the identifier is absent from the cache store. When it is present, the source's session shares the stored dictionary object, so cache writes reach the store without `persist`; the model copies values and does not represent that sharing.
- Connector.Resync: it states that the host's cache store is unchanged, which holds in the model only. When a cache was stored under the session's identifier, the source's session holds that very dictionary, so every cache write of the resync also lands in the host's store. The model gives the session a copy, and the store receives the cache only at shutdown.
- VolvoSession.RetriesStatus is this model's reading of the `BlacklistRetry` adapter and the HTTP library's retry decision. Their source is not part of this model, and the 429 isolation that `VolvoSession.SetRetriesIsolatesQuota` proves holds by that reading.
- AuthUtil.AddBearerAuthHeader returns a new map. The source updates a non-empty caller dictionary in place, so the caller's own dictionary changes too; the model has no shared dictionaries.
- SessionManager.GetSession: the token stored under the identifier, and its metadata, are read by the source but never used. The model does not read them.
- Vehicles.ApplyDetails: its own contract states only that the manager flag is kept; the copied fields are stated by `Vehicles.DetailsApplied`.
- SessionManager.Persist: writes no metadata record, only the token. The source means to store each session's metadata beside its token, but no session type defines `metadata`, so what the record would hold is not recoverable; `get_session` reads it back but never uses it.
- Connector.Shutdown: models only the persistence step, with the corrected `persist`; the as-shipped failure is stated by `SessionManager.PersistAsShipped`.

## Findings

| source | as written | input that shows it | evidently intended | confidence | as-written member | corrected member |
|---|---|---|---|---|---|---|
| src/carconnectivity_connectors/volvo/connector.py:428 | on a 401 the fetch calls `session.login()`, which the session class and its HTTP base class do not define, so it raises `AttributeError`; the poll loop treats that as fatal | any non-cached fetch whose first reply is 401 | re-authenticate once and retry the GET, classifying the second reply | high (not executed) | Fetch.FetchDataAsShipped | Fetch.FetchData |
| src/carconnectivity_connectors/volvo/auth/session_manager.py:152 | `persist` reads `session.metadata`, which the session does not define, so it raises after writing the first session's token and never writes any cache | a manager holding one session, at shutdown | store every session's token and cache under its identifier; the metadata record is also meant to be written, but no session defines what it holds | high (not executed) | SessionManager.PersistAsShipped | SessionManager.Persist |

=== FILE: auth_util.dfy ===
/** `add_bearer_auth_header`: put an OAuth 2.0 bearer credential into the
    `Authorization` request header (section 2.1 of RFC 6750). */
module AuthUtil {
  import opened Wrappers

  /** Request headers, name to value. */
  type Headers = map<string, string>

  const Authorization: string := "Authorization"

  /** The header value that carries `token` as a bearer credential. */
  function BearerValue(token: string): string {
    "Bearer " + token
  }

  /** The caller's headers (`None` and the empty map both stand for "no
      headers") with `Authorization` set to the bearer value of `token`;
      every other header keeps its value and an earlier `Authorization`
      is replaced. */
  function AddBearerAuthHeader(token: string, headers: Option<Headers>): (r: Headers)
    ensures Authorization in r && r[Authorization] == BearerValue(token)
    ensures r.Keys == headers.GetOr(map[]).Keys + {Authorization}
    ensures forall k :: k in headers.GetOr(map[]) && k != Authorization ==> r[k] == headers.GetOr(map[])[k]
  {
    var base := if headers.Some? && |headers.value| > 0 then headers.value else map[];
    base[Authorization := BearerValue(token)]
  }

  /** With no headers, or an empty map, the result holds the bearer
      header and nothing else. */
  lemma NoHeadersGivesOnlyAuthorization(token: string, headers: Option<Headers>)
    requires headers == None || headers == Some(map[])
    ensures AddBearerAuthHeader(token, headers) == map[Authorization := BearerValue(token)]
  {
  }

  /** A header that is not `Authorization` is in the result exactly when it
      was in the input, with the same value. */
  lemma OtherHeadersUndisturbed(token: string, headers: Headers, k: string)
    requires k != Authorization
    ensures k in AddBearerAuthHeader(token, Some(headers)) <==> k in headers
    ensures k in headers ==> AddBearerAuthHeader(token, Some(headers))[k] == headers[k]
  {
  }

  /** Adding the same bearer header a second time changes nothing. */
  lemma AddBearerIdempotent(token: string, headers: Option<Headers>)
    ensures var once := AddBearerAuthHeader(token, headers);
            AddBearerAuthHeader(token, Some(once)) == once
  {
    var once := AddBearerAuthHeader(token, headers);
    var twice := AddBearerAuthHeader(token, Some(once));
    assert twice.Keys == once.Keys;
    assert forall k :: k in once ==> twice[k] == once[k];
  }

  /** Re-adding with a different token keeps only the newer credential. */
  lemma LastTokenWins(t1: string, t2: string, headers: Option<Headers>)
    ensures AddBearerAuthHeader(t2, Some(AddBearerAuthHeader(t1, headers)))
            == AddBearerAuthHeader(t2, headers)
  {
    var a := AddBearerAuthHeader(t2, Some(AddBearerAuthHeader(t1, headers)));
    var b := AddBearerAuthHeader(t2, headers);
    assert a.Keys == b.Keys;
    assert forall k :: k in a ==> a[k] == b[k];
  }
}

=== FILE: connector.dfy ===
/** The `Connector` class around the core: configuration rules of the
    constructor, the session it obtains from the session manager, one
    polling cycle (the work `_background_loop` runs, fed to
    `PollLoop.Step`), and persistence at shutdown. */
module Connector {
  import opened Wrappers
  import opened Errors
  import opened ResponseCache
  import opened VolvoSession
  import opened SessionManager
  import opened Fetch
  import opened Vehicles
  import opened PollLoop

  /** Interval when the configuration names none. */
  const DefaultInterval: int := 180
  /** Smallest interval the configuration may name. */
  const MinimumInterval: int := 60
  /** Retries and request timeout the constructor gives its session. */
  const SessionRetries: int := 3
  const SessionTimeout: int := 180

  /** The configuration dictionary. A key that is absent and a key mapped
      to null are alike for the three credentials; for `max_age` they
      differ: an explicit null turns caching off. */
  datatype RawConfig = RawConfig(
    apiKeyPrimary: Option<string>,
    apiKeySecondary: Option<string>,
    connectedVehicleToken: Option<string>,
    interval: Option<int>,
    maxAge: Option<Option<int>>)

  /** The validated configuration (`active_config`). */
  datatype Config = Config(
    apiKeyPrimary: string,
    apiKeySecondary: string,
    connectedVehicleToken: string,
    interval: int,
    maxAge: Option<int>)

  /** The constructor's checks, in order: the three credentials must be
      present and not null, an interval, when given, must be at least 60
      seconds (default 180), and `max_age` defaults to one second less than
      the interval unless the configuration names it. */
  function Configure(raw: RawConfig): (r: Result<Config, Error>)
    ensures raw.apiKeyPrimary.None? ==> r == Failure(Authentication("vcc_api_key_primary was not found in config"))
    ensures raw.apiKeyPrimary.Some? && raw.apiKeySecondary.None? ==>
              r == Failure(Authentication("vcc_api_key_secondary was not found in config"))
    ensures raw.apiKeyPrimary.Some? && raw.apiKeySecondary.Some? && raw.connectedVehicleToken.None? ==>
              r == Failure(Authentication("connected_vehicle_token was not found in config"))
    ensures r.Success? <==>
              raw.apiKeyPrimary.Some? && raw.apiKeySecondary.Some? && raw.connectedVehicleToken.Some?
              && (raw.interval.None? || raw.interval.value >= 60)
    ensures r.Failure? && raw.apiKeyPrimary.Some? && raw.apiKeySecondary.Some? && raw.connectedVehicleToken.Some? ==>
              r == Failure(ValueError("Intervall must be at least 60 seconds"))
    ensures r.Success? ==>
              && r.value.apiKeyPrimary == raw.apiKeyPrimary.value
              && r.value.apiKeySecondary == raw.apiKeySecondary.value
              && r.value.connectedVehicleToken == raw.connectedVehicleToken.value
              && r.value.interval >= 60
              && (raw.interval.None? ==> r.value.interval == 180)
              && (raw.interval.Some? ==> r.value.interval == raw.interval.value)
              && (raw.maxAge.None? ==> r.value.maxAge == Some(r.value.interval - 1))
              && (raw.maxAge.Some? ==> r.value.maxAge == raw.maxAge.value)
  {
    if raw.apiKeyPrimary.None? then Failure(Authentication("vcc_api_key_primary was not found in config"))
    else if raw.apiKeySecondary.None? then Failure(Authentication("vcc_api_key_secondary was not found in config"))
    else if raw.connectedVehicleToken.None? then Failure(Authentication("connected_vehicle_token was not found in config"))
    else
      var interval := if raw.interval.Some? then raw.interval.value else DefaultInterval;
      if raw.interval.Some? && interval < MinimumInterval then Failure(ValueError("Intervall must be at least 60 seconds"))
      else
        var maxAge := if raw.maxAge.Some? then raw.maxAge.value else Some(interval - 1);
        Success(Config(raw.apiKeyPrimary.value, raw.apiKeySecondary.value, raw.connectedVehicleToken.value, interval, maxAge))
  }

  /** With the default `max_age`, a payload captured during one cycle is
      still served for the rest of that cycle but is stale when the next
      cycle starts one interval later, so every cycle fetches anew. */
  lemma DefaultMaxAgeRefreshesEachCycle(raw: RawConfig, captured: int, now: int)
    requires Configure(raw).Success? && raw.maxAge.None?
    ensures var c := Configure(raw).value;
            (captured <= now < captured + c.interval ==> FreshAt(captured, now, c.maxAge.value))
            && !FreshAt(captured, captured + c.interval, c.maxAge.value)
  {
  }

  /** The connector's state: its configuration, the session manager (which
      holds the connector's one session), the credential object the session
      is registered under, the garage, and the value of the `interval`
      attribute in seconds. The host may change that attribute at run time
      or clear it (`None`); each iteration reads it afresh. */
  datatype Connector = Connector(config: Config, registry: Registry, credential: SessionToken, garage: Garage,
                                 interval: Option<int>)

  /** The registry holds exactly the connector's session. */
  predicate Valid(c: Connector) {
    |c.registry.sessions| == 1
    && c.registry.sessions[0].service == VolvoConnectedVehicle
    && c.registry.sessions[0].token == c.credential
  }

  /** The connector's session: the object the session manager holds. */
  function SessionOf(c: Connector): Session
    requires Valid(c)
  {
    c.registry.sessions[0].session
  }

  /** The connector after its session has changed; the manager sees the
      change because it holds the same object. */
  function WithSession(c: Connector, s: Session): (r: Connector)
    requires Valid(c)
    ensures Valid(r) && SessionOf(r) == s && r.config == c.config && r.garage == c.garage
  {
    c.(registry := c.registry.(sessions := [Entry(VolvoConnectedVehicle, c.credential, s)]))
  }

  /** The constructor: validate the configuration, obtain the session for
      the configured credential from a fresh session manager over the host's
      stores, then set its retries to 3 and its timeout to 180 seconds.
      `identity` names the new credential object. */
  function Construct(raw: RawConfig, tokenstore: map<string, TokenRecord>, cache: map<string, Option<Cache>>,
                     digest: string -> string, identity: nat, garage: Garage): (r: Result<Connector, Error>)
    ensures r.Success? <==> Configure(raw).Success?
    ensures r.Failure? ==> r.error == Configure(raw).error
    ensures r.Success? ==> Valid(r.value) && r.value.config == Configure(raw).value && r.value.garage == garage
    ensures r.Success? ==> r.value.interval == Some(r.value.config.interval)
  {
    match Configure(raw)
    case Failure(e) => Failure(e)
    case Success(config) =>
      var credential := SessionToken(identity, config.apiKeyPrimary, config.apiKeySecondary, config.connectedVehicleToken);
      var reg := NewRegistry(tokenstore, cache);
      match GetSession(reg, digest, VolvoConnectedVehicle, credential)
      case Failure(e) => assert false; Failure(e)
      case Success(got) =>
        var session := SetRetries(got.0, SessionRetries).(timeout := Some(SessionTimeout));
        Success(Connector(config, got.1.(sessions := [Entry(VolvoConnectedVehicle, credential, session)]), credential, garage,
                          Some(config.interval)))
  }

  /** The constructed connector's session sends the primary API key and the
      configured access token, retries server errors three times while
      leaving 429 to the caller, times out after 180 seconds, and starts
      from the cache stored under its identifier (empty when none is). */
  lemma ConstructedSession(raw: RawConfig, tokenstore: map<string, TokenRecord>, cache: map<string, Option<Cache>>,
                           digest: string -> string, identity: nat, garage: Garage)
    requires Construct(raw, tokenstore, cache, digest, identity, garage).Success?
    ensures var c := Construct(raw, tokenstore, cache, digest, identity, garage).value;
            var s := SessionOf(c);
            var id := GenerateIdentifier(digest, VolvoConnectedVehicle, c.credential);
            && s.headers[ApiKeyHeader] == c.config.apiKeyPrimary
            && Token(s) == Some(c.config.connectedVehicleToken)
            && s.retries == 3 && s.adapter == Some(RetryPolicy(3, 100, {500}, {429}, false))
            && s.timeout == Some(180)
            && s.cache == (if id in cache then cache[id] else Some(map[]))
            && c.registry.tokenstore == tokenstore && c.registry.cache == cache
  {
  }

  /** `fetch_all`: `fetch_vehicles` (ending in `update_vehicles`) against the
      connector's session, then the host's transaction end, which the model
      does not represent. */
  function Resync(c: Connector, now: int, net: string -> Exchange, login: Login): (r: (Connector, Option<Error>))
    requires Valid(c)
    ensures Valid(r.0) && r.0.config == c.config && r.0.credential == c.credential && r.0.interval == c.interval
    ensures r.0.registry.tokenstore == c.registry.tokenstore && r.0.registry.cache == c.registry.cache
    ensures r.1.None? ==> forall vin :: vin in r.0.garage && r.0.garage[vin].managedHere ==> vin !in c.garage || c.garage[vin].managedHere
    ensures forall vin :: vin in c.garage && !c.garage[vin].managedHere ==> vin in r.0.garage
    ensures r.1.Some? ==> c.garage.Keys <= r.0.garage.Keys
  {
    var o := FetchVehicles(c.garage, SessionOf(c), c.config.maxAge, now, net, login);
    (WithSession(c, o.session).(garage := o.garage), o.error)
  }

  /** One iteration of `_background_loop`: unless a stop is requested, run
      the full resync while it is due and the update otherwise, and let
      `PollLoop.Step` choose the next state and wait, from the `interval`
      attribute as it is now (300 seconds when it is cleared).
      `update_vehicles` only calls `decide_state`, which is empty. */
  function Cycle(c: Connector, l: Loop, stop: bool, now: int, net: string -> Exchange, login: Login): (r: (Connector, Next))
    requires Valid(c)
    ensures Valid(r.0) && r.0.config == c.config && r.0.interval == c.interval
    ensures r.1.Stopped? <==> stop
    ensures stop || !l.fullSyncPending ==> r.0 == c
    ensures r.1.Continue? && r.1.loop.state == Connected ==>
              && !r.1.loop.fullSyncPending
              && r.1.wait == (if c.interval.Some? then c.interval.value else 300)
    ensures r.1.Continue? ==> r.1.wait == 900 || r.1.wait == (if c.interval.Some? then c.interval.value else 300)
  {
    if stop then (c, Step(l, true, now, c.interval, Done))
    else if ActionFor(l).FetchAll? then
      var (c', err) := Resync(c, now, net, login);
      (c', Step(l, false, now, c.interval, if err.Some? then Raised(err.value) else Done))
    else (c, Step(l, false, now, c.interval, Done))
  }

  /** Once the full resync has succeeded, every later cycle succeeds without
      touching the network, the cache or the garage, and waits the current
      `interval` value. */
  lemma LaterCyclesAreIdle(c: Connector, l: Loop, now: int, net: string -> Exchange, login: Login)
    requires Valid(c) && !l.fullSyncPending
    ensures var r := Cycle(c, l, false, now, net, login);
            r.0 == c && r.1 == Continue(l.(state := Connected, lastUpdate := Some(now)), IntervalOr300(c.interval))
  {
  }

  /** A cycle whose resync fails on a 429 from the listing endpoint sets
      ERROR and waits 900 seconds, whatever the configured interval; the
      resync stays due. */
  lemma QuotaOnListingCoolsDown(c: Connector, l: Loop, now: int, net: string -> Exchange, login: Login, body: Body)
    requires Valid(c) && l.fullSyncPending
    requires !ServesFromCache(SessionOf(c), VehiclesUrl, c.config.maxAge, DefaultFlags, now)
    requires Get(SessionOf(c), VehiclesUrl).Success?
    requires net(VehiclesUrl).first == Reply(429, body)
    ensures var r := Cycle(c, l, false, now, net, login);
            r.1 == Continue(l.(state := Error), 900) && r.1.loop.fullSyncPending
  {
  }

  /** `shutdown` as far as state goes: persist the session manager. The
      corrected `persist` is used. */
  function Shutdown(c: Connector, digest: string -> string): (r: Connector)
    requires Valid(c)
    ensures Valid(r) && SessionOf(r) == SessionOf(c)
  {
    c.(registry := Persist(c.registry, digest))
  }

  /** With the corrected `persist`, after shutdown the host's stores hold
      the session's access token and its cache, with every payload the
      cycles wrote, under the session's identifier; other identifiers are
      untouched in both stores. */
  lemma ShutdownPersistsSession(c: Connector, digest: string -> string, other: string)
    requires Valid(c)
    requires other != GenerateIdentifier(digest, VolvoConnectedVehicle, c.credential)
    ensures var r := Shutdown(c, digest);
            var id := GenerateIdentifier(digest, VolvoConnectedVehicle, c.credential);
            && id in r.registry.tokenstore && r.registry.tokenstore[id] == TokenRecord(Token(SessionOf(c)))
            && id in r.registry.cache && r.registry.cache[id] == SessionOf(c).cache
            && (other in r.registry.cache <==> other in c.registry.cache)
            && (other in c.registry.cache ==> r.registry.cache[other] == c.registry.cache[other])
            && (other in r.registry.tokenstore <==> other in c.registry.tokenstore)
            && (other in c.registry.tokenstore ==> r.registry.tokenstore[other] == c.registry.tokenstore[other])
  {
    PersistStoresSession(c.registry, digest, 0);
    PersistLeavesOthers(c.registry, digest, other);
  }
}

=== FILE: errors.dfy ===
/** The exceptions the connector raises or lets escape, one constructor per
    exception class that matters to the poll loop's classification. */
module Errors {

  /** Transport-level failures of the HTTP client that the fetch turns
      into a retrieval error. */
  datatype TransportFault =
    | ConnectionFault        // requests.exceptions.ConnectionError
    | ChunkedEncodingFault   // requests.exceptions.ChunkedEncodingError
    | ReadTimeoutFault       // requests.exceptions.ReadTimeout
    | RetryFault             // requests.exceptions.RetryError

  /** Why a `RetrievalError` was raised. */
  datatype RetrievalCause =
    | HttpStatus(code: int)           // non-success status on the first GET
    | StatusAfterReauth(code: int)    // non-success status on the GET after re-login
    | Transport(fault: TransportFault)
    | JsonDecode                      // body of a 200/207 reply is not JSON

  datatype Error =
    | TooManyRequests(code: int)                  // TooManyRequestsError (HTTP 429)
    | Retrieval(cause: RetrievalCause)            // RetrievalError
    | ApiCompatibility                            // APICompatibilityError
    | TemporaryAuthentication                     // TemporaryAuthenticationError
    | Api(message: string)                        // APIError
    | Authentication(message: string)             // AuthenticationError
    | ValueError(message: string)                 // ValueError
    | AttributeError(name: string)                // AttributeError
    | InsecureTransport                           // oauthlib InsecureTransportError
    | MissingToken                                // oauthlib MissingTokenError
}

=== FILE: fetch.dfy ===
/** `Connector._fetch_data`: the path every API request of the connector
    takes. It serves a fresh cached payload without a network call,
    or issues a GET and classifies the reply: success (written back to the
    cache), "no data", quota exceeded, a single re-login and retry on 401, or
    a retrieval error.

    The network is an input: `Exchange` holds the reply to the first GET and
    the reply the retried GET would get after a re-login. Time is integer
    seconds; one instant `now` serves both the freshness check and the
    write-back. */
module Fetch {
  import opened Wrappers
  import opened Json
  import opened Errors
  import opened ResponseCache
  import opened VolvoSession

  const Ok: int := 200
  /** Section 11.1 of RFC 4918. */
  const MultiStatus: int := 207
  const NoContent: int := 204
  const Unauthorized: int := 401
  /** Section 4 of RFC 6585. */
  const TooManyRequestsCode: int := 429

  /** A reply body: valid JSON (a literal `null` decodes to `JNull`, the
      Python's `None`) or not JSON. */
  datatype Body = Decodable(value: Json) | Undecodable

  /** What one GET yields: a status and body, or a transport failure. */
  datatype Response = Reply(code: int, body: Body) | Fault(fault: TransportFault)

  /** The replies to the first GET and to the GET retried after a re-login. */
  datatype Exchange = Exchange(first: Response, second: Response)

  /** The keyword arguments of `_fetch_data`. */
  datatype Flags = Flags(
    force: bool,
    allowEmpty: bool,
    allowHttpError: bool,
    allowedErrors: Option<set<int>>)

  const DefaultFlags: Flags := Flags(false, false, false, None)

  /** What `session.login()` does: completes, or raises. */
  datatype Login = LoggedIn | LoginRaises(error: Error)

  /** The fetch's result (`JNull` for Python's `None`), the session
      afterwards (its cache may have a new entry), and how many GETs went to
      the network and how many re-logins were attempted. */
  datatype Fetched = Fetched(result: Result<Json, Error>, session: Session, gets: nat, logins: nat)

  predicate IsSuccessCode(code: int) {
    code == Ok || code == MultiStatus
  }

  /** A non-success status the caller chose to tolerate instead of raising. */
  predicate Tolerated(flags: Flags, code: int) {
    flags.allowHttpError && (flags.allowedErrors.None? || code in flags.allowedErrors.value)
  }

  /** The cache lookup runs: not forced, a maximum age is set, the session
      has a cache and the URL is in it. */
  predicate LooksUp(s: Session, url: string, maxAge: Option<int>, flags: Flags) {
    !flags.force && maxAge.Some? && s.cache.Some? && url in s.cache.value
  }

  /** The lookup found a non-null payload that is still fresh at `now`. */
  predicate ServesFromCache(s: Session, url: string, maxAge: Option<int>, flags: Flags, now: int) {
    LooksUp(s, url, maxAge, flags)
    && s.cache.value[url].data != JNull
    && FreshAt(s.cache.value[url].captured, now, maxAge.value)
  }

  /** The payload the lookup read, fresh or stale; `JNull` when it did not run. */
  function Looked(s: Session, url: string, maxAge: Option<int>, flags: Flags): Json {
    if LooksUp(s, url, maxAge, flags) then s.cache.value[url].data else JNull
  }

  /** The session with `url` captured at `now` in its cache, if it has one. */
  function Store(s: Session, url: string, data: Json, now: int): Session {
    if s.cache.Some? then s.(cache := Some(s.cache.value[url := CacheEntry(data, now)])) else s
  }

  /** Handling of a 200/207 reply: decode, write back, return. */
  function Accept(s: Session, url: string, body: Body, flags: Flags, now: int, gets: nat, logins: nat): Fetched {
    match body
    case Decodable(v) => Fetched(Success(v), Store(s, url, v, now), gets, logins)
    case Undecodable =>
      Fetched(if flags.allowEmpty then Success(JNull) else Failure(Retrieval(JsonDecode)), s, gets, logins)
  }

  /** `_fetch_data(url, session, force, allow_empty, allow_http_error,
      allowed_errors)` with maximum age `maxAge` from the connector's
      configuration and the re-login outcome `login`. */
  function FetchData(s: Session, maxAge: Option<int>, url: string, flags: Flags, now: int,
                     ex: Exchange, login: Login): (f: Fetched)
    ensures f.logins <= 1 && f.gets <= 2
    ensures f.gets == 2 ==> f.logins == 1
    ensures f.logins == 1 ==> ex.first.Reply? && ex.first.code == Unauthorized
    ensures f.session.(cache := s.cache) == s
    ensures f.session != s ==>
              && s.cache.Some? && f.result.Success? && f.gets >= 1
              && f.session.cache == Some(s.cache.value[url := CacheEntry(f.result.value, now)])
  {
    if ServesFromCache(s, url, maxAge, flags, now) then
      Fetched(Success(s.cache.value[url].data), s, 0, 0)
    else if Get(s, url).Failure? then
      Fetched(Failure(Get(s, url).error), s, 0, 0)
    else
      var prior := Looked(s, url, maxAge, flags);
      match ex.first
      case Fault(fault) => Fetched(Failure(Retrieval(Transport(fault))), s, 1, 0)
      case Reply(code, body) =>
        if IsSuccessCode(code) then Accept(s, url, body, flags, now, 1, 0)
        else if code == NoContent && flags.allowEmpty then Fetched(Success(JNull), s, 1, 0)
        else if code == TooManyRequestsCode then Fetched(Failure(TooManyRequests(code)), s, 1, 0)
        else if code == Unauthorized then
          match login
          case LoginRaises(e) => Fetched(Failure(e), s, 1, 1)
          case LoggedIn =>
            match ex.second
            case Fault(fault) => Fetched(Failure(Retrieval(Transport(fault))), s, 2, 1)
            case Reply(code2, body2) =>
              if IsSuccessCode(code2) then Accept(s, url, body2, flags, now, 2, 1)
              else if Tolerated(flags, code2) then Fetched(Success(prior), s, 2, 1)
              else Fetched(Failure(Retrieval(StatusAfterReauth(code2))), s, 2, 1)
        else if Tolerated(flags, code) then Fetched(Success(prior), s, 1, 0)
        else Fetched(Failure(Retrieval(HttpStatus(code))), s, 1, 0)
  }

  /** The cached payload is returned without any network call exactly when
      the fetch is not forced, a maximum age is set, the URL is cached with a
      non-null payload and that payload is not older than `now - maxAge`;
      otherwise a GET goes out unless the session refuses the request. In
      particular a `None` maximum age always fetches. */
  lemma CacheServedIff(s: Session, maxAge: Option<int>, url: string, flags: Flags, now: int,
                       ex: Exchange, login: Login)
    ensures var f := FetchData(s, maxAge, url, flags, now, ex, login);
            ServesFromCache(s, url, maxAge, flags, now) ==>
              f == Fetched(Success(s.cache.value[url].data), s, 0, 0)
    ensures var f := FetchData(s, maxAge, url, flags, now, ex, login);
            Get(s, url).Success? ==>
              (f.gets == 0 <==>
                 !flags.force && maxAge.Some? && s.cache.Some? && url in s.cache.value
                 && s.cache.value[url].data != JNull && s.cache.value[url].captured >= now - maxAge.value)
    ensures maxAge.None? && Get(s, url).Success? ==> FetchData(s, maxAge, url, flags, now, ex, login).gets >= 1
  {
  }

  /** A request the session refuses (insecure URL, no token) fails the fetch
      with that error before any network call. */
  lemma RefusedRequestFailsFetch(s: Session, maxAge: Option<int>, url: string, flags: Flags, now: int,
                                 ex: Exchange, login: Login)
    requires !ServesFromCache(s, url, maxAge, flags, now)
    requires !IsSecureTransport(url) || s.accessToken.None?
    ensures var f := FetchData(s, maxAge, url, flags, now, ex, login);
            f.gets == 0 && f.session == s && f.result.Failure?
            && (f.result.error == InsecureTransport || f.result.error == MissingToken)
  {
  }

  /** A 200 or 207 reply with a JSON body returns the body and records it
      in the cache under the URL, captured now; no other entry changes. */
  lemma SuccessWritesCache(s: Session, maxAge: Option<int>, url: string, flags: Flags, now: int,
                           code: int, v: Json, second: Response, login: Login)
    requires !ServesFromCache(s, url, maxAge, flags, now) && Get(s, url).Success?
    requires code == 200 || code == 207
    requires s.cache.Some?
    ensures var f := FetchData(s, maxAge, url, flags, now, Exchange(Reply(code, Decodable(v)), second), login);
            && f.result == Success(v) && f.gets == 1 && f.logins == 0
            && f.session.cache.Some?
            && url in f.session.cache.value && f.session.cache.value[url] == CacheEntry(v, now)
            && f.session.cache.value.Keys == s.cache.value.Keys + {url}
            && (forall k :: k in s.cache.value && k != url ==> f.session.cache.value[k] == s.cache.value[k])
  {
  }

  /** A 429 reply always surfaces as quota exceeded: no re-login, no retry
      and no cache write. */
  lemma QuotaExceededSurfaces(s: Session, maxAge: Option<int>, url: string, flags: Flags, now: int,
                              body: Body, second: Response, login: Login)
    requires !ServesFromCache(s, url, maxAge, flags, now) && Get(s, url).Success?
    ensures FetchData(s, maxAge, url, flags, now, Exchange(Reply(429, body), second), login)
            == Fetched(Failure(TooManyRequests(429)), s, 1, 0)
  {
  }

  /** A 401 reply causes exactly one re-login and exactly one second GET. A
      successful second reply is handled like a first one; any other second
      status is a retrieval error unless tolerated, in which case the payload
      the cache lookup read (if any) is returned. */
  lemma UnauthorizedReauthenticatesOnce(s: Session, maxAge: Option<int>, url: string, flags: Flags, now: int,
                                        body: Body, second: Response)
    requires !ServesFromCache(s, url, maxAge, flags, now) && Get(s, url).Success?
    ensures var f := FetchData(s, maxAge, url, flags, now, Exchange(Reply(401, body), second), LoggedIn);
            && f.logins == 1 && f.gets == 2
            && (second.Reply? && !IsSuccessCode(second.code) ==>
                  f.session == s
                  && f.result == (if Tolerated(flags, second.code) then Success(Looked(s, url, maxAge, flags))
                                  else Failure(Retrieval(StatusAfterReauth(second.code)))))
            && (second.Reply? && IsSuccessCode(second.code) && second.body.Decodable? ==>
                  f.result == Success(second.body.value) && f.session == Store(s, url, second.body.value, now))
            && (second.Fault? ==> f.result == Failure(Retrieval(Transport(second.fault))))
  {
  }

  /** Two 401 replies in a row end in a retrieval error after one re-login,
      never in a loop, and 204 or 429 after a re-login get no special
      treatment. */
  lemma SecondFailureAfterReauth(s: Session, maxAge: Option<int>, url: string, now: int,
                                 body: Body, code2: int, body2: Body)
    requires !ServesFromCache(s, url, maxAge, DefaultFlags, now) && Get(s, url).Success?
    requires code2 == 401 || code2 == 204 || code2 == 429
    ensures FetchData(s, maxAge, url, DefaultFlags, now, Exchange(Reply(401, body), Reply(code2, body2)), LoggedIn)
            == Fetched(Failure(Retrieval(StatusAfterReauth(code2))), s, 2, 1)
  {
  }

  /** 204 with `allow_empty` returns no data. Any other status that is not
      200, 207, 401 or 429 (204 without `allow_empty` included) raises a
      retrieval error unless tolerated, in which case the payload the cache
      lookup read (if any) is returned. Neither touches the cache. */
  lemma OtherStatusClassified(s: Session, maxAge: Option<int>, url: string, flags: Flags, now: int,
                              code: int, body: Body, second: Response, login: Login)
    requires !ServesFromCache(s, url, maxAge, flags, now) && Get(s, url).Success?
    requires !IsSuccessCode(code) && code != 401 && code != 429
    ensures var f := FetchData(s, maxAge, url, flags, now, Exchange(Reply(code, body), second), login);
            && f.session == s && f.gets == 1 && f.logins == 0
            && f.result == (if code == 204 && flags.allowEmpty then Success(JNull)
                            else if Tolerated(flags, code) then Success(Looked(s, url, maxAge, flags))
                            else Failure(Retrieval(HttpStatus(code))))
  {
  }

  /** With a maximum age of `None` or a forced fetch there is no lookup, so
      a tolerated error status yields no data (`JNull`). */
  lemma ToleratedWithoutLookupIsEmpty(s: Session, maxAge: Option<int>, url: string, flags: Flags, now: int,
                                      code: int, body: Body, second: Response, login: Login)
    requires maxAge.None? || flags.force
    requires Get(s, url).Success?
    requires !IsSuccessCode(code) && code != 401 && code != 429 && Tolerated(flags, code)
    ensures FetchData(s, maxAge, url, flags, now, Exchange(Reply(code, body), second), login).result == Success(JNull)
  {
  }

  /** A 200/207 body that is not JSON yields no data with `allow_empty` and a
      retrieval error otherwise; a transport failure is always a retrieval
      error. The cache is untouched either way. */
  lemma FaultsAreRetrievalErrors(s: Session, maxAge: Option<int>, url: string, flags: Flags, now: int,
                                 code: int, fault: TransportFault, second: Response, login: Login)
    requires !ServesFromCache(s, url, maxAge, flags, now) && Get(s, url).Success?
    requires IsSuccessCode(code)
    ensures var f := FetchData(s, maxAge, url, flags, now, Exchange(Reply(code, Undecodable), second), login);
            f.session == s
            && f.result == (if flags.allowEmpty then Success(JNull) else Failure(Retrieval(JsonDecode)))
    ensures var f := FetchData(s, maxAge, url, flags, now, Exchange(Fault(fault), second), login);
            f.session == s && f.result == Failure(Retrieval(Transport(fault))) && f.gets == 1
  {
  }

  /** Write-through and freshness together: after a fetch that went to the
      network and stored a payload, fetching the same URL again within the
      maximum age is served from the cache with the same payload; after the
      maximum age has passed it goes to the network again. */
  lemma RefetchWithinMaxAgeIsCached(s: Session, maxAge: int, url: string, flags: Flags, now: int,
                                    ex: Exchange, login: Login, later: int, ex2: Exchange, login2: Login)
    requires !flags.force
    requires var f := FetchData(s, Some(maxAge), url, flags, now, ex, login);
             f.gets >= 1 && f.result.Success? && f.result.value != JNull && f.session.cache.Some?
             && url in f.session.cache.value && f.session.cache.value[url] == CacheEntry(f.result.value, now)
    ensures var f := FetchData(s, Some(maxAge), url, flags, now, ex, login);
            var g := FetchData(f.session, Some(maxAge), url, flags, later, ex2, login2);
            (later <= now + maxAge ==> g == Fetched(f.result, f.session, 0, 0))
            && (later > now + maxAge && Get(s, url).Success? ==> g.gets >= 1)
  {
  }

  /** A 200 reply whose body is JSON `null` is stored as a `None` payload,
      and a stored `None` is never served: the next fetch of the URL, however
      soon, goes to the network again. */
  lemma NullPayloadIsRefetched(s: Session, maxAge: Option<int>, url: string, flags: Flags, now: int,
                               second: Response, login: Login, later: int, ex2: Exchange, login2: Login)
    requires !ServesFromCache(s, url, maxAge, flags, now) && Get(s, url).Success?
    requires s.cache.Some?
    ensures var f := FetchData(s, maxAge, url, flags, now, Exchange(Reply(200, Decodable(JNull)), second), login);
            && f.result == Success(JNull)
            && f.session.cache.Some? && url in f.session.cache.value
            && f.session.cache.value[url] == CacheEntry(JNull, now)
            && FetchData(f.session, maxAge, url, flags, later, ex2, login2).gets >= 1
  {
  }

  /** `_fetch_data` as shipped: `VolvoSession` (and the HTTP session class it
      extends) has no `login` method, so the re-login raises
      `AttributeError`, which none of the fetch's handlers catch. */
  function FetchDataAsShipped(s: Session, maxAge: Option<int>, url: string, flags: Flags, now: int,
                              ex: Exchange): (f: Fetched)
    ensures f.logins == 1 <==> f.result == Failure(AttributeError("login"))
    ensures f.logins == 1 ==> f.gets == 1 && f.session == s
    ensures f.gets <= 1
  {
    FetchData(s, maxAge, url, flags, now, ex, LoginRaises(AttributeError("login")))
  }

  /** As shipped, every 401 reply ends the fetch with `AttributeError`: the
      retried GET never happens, whatever the server would answer. */
  lemma UnauthorizedIsFatalAsShipped(s: Session, maxAge: Option<int>, url: string, flags: Flags, now: int,
                                     body: Body, second: Response)
    requires !ServesFromCache(s, url, maxAge, flags, now) && Get(s, url).Success?
    ensures var f := FetchDataAsShipped(s, maxAge, url, flags, now, Exchange(Reply(401, body), second));
            f.result == Failure(AttributeError("login")) && f.gets == 1 && f.logins == 1 && f.session == s
  {
  }
}

=== FILE: json.dfy ===
/** Decoded JSON documents as the vehicle API returns them. */
module Json {
  import opened Wrappers

  /** A decoded JSON document. `JNull` is JSON `null` and Python's `None`
      alike: a decoded document, a cached payload and the "no data" result
      of a fetch all use it, so the model has one way to say "nothing". */
  datatype Json =
    | JNull
    | JBool(b: bool)
    | JNum(n: int)
    | JStr(s: string)
    | JArr(items: seq<Json>)
    | JObj(fields: map<string, Json>)

  /** The connector's recurring guard `key in d and d[key] is not None`
      followed by `d[key]`: the member when it is present and not null.
      A document that is not an object has no members. */
  function Member(j: Json, key: string): Option<Json>
  {
    if j.JObj? && key in j.fields && j.fields[key] != JNull then Some(j.fields[key]) else None
  }
}

=== FILE: poll_loop.dfy ===
/** `Connector._background_loop` as a transition function: one call of
    `Step` is one iteration of the `while` loop. The work of the iteration
    (a full resync on the first iteration, an update afterwards) is an
    input `Outcome`; waiting is represented only by the chosen duration. */
module PollLoop {
  import opened Wrappers
  import opened Errors

  datatype ConnectionState = Disconnected | Connecting | Connected | Error

  /** The loop's observable state: connection state, the connector's
      `healthy` flag, whether the full resync (`fetch_all`) is still due,
      and the `last_update` timestamp. */
  datatype Loop = Loop(
    state: ConnectionState,
    healthy: bool,
    fullSyncPending: bool,
    lastUpdate: Option<int>)

  /** What an iteration runs. */
  datatype Action = FetchAll | UpdateVehicles

  /** How the iteration's work ended. */
  datatype Outcome = Done | Raised(error: Error)

  /** The loop's reaction to an exception. */
  datatype Reaction = CoolDown | RetryAfterInterval | Fatal

  /** One iteration: go on after waiting `wait` seconds, leave the loop
      because a stop was requested, or let the exception escape. */
  datatype Next =
    | Continue(loop: Loop, wait: int)
    | Stopped(loop: Loop)
    | Crashed(loop: Loop, error: Error)

  /** Wait when the interval is not known. */
  const FallbackInterval: int := 300
  /** Cool-down after the provider reports too many requests (15 minutes). */
  const QuotaCoolDown: int := 900

  /** The `except` clauses in order: quota first, then retrieval, API
      compatibility and temporary authentication, then everything else. */
  function React(e: Error): (r: Reaction)
    ensures r == CoolDown <==> e.TooManyRequests?
    ensures r == RetryAfterInterval <==> e.Retrieval? || e.ApiCompatibility? || e.TemporaryAuthentication?
    ensures r == Fatal <==>
              !e.TooManyRequests? && !e.Retrieval? && !e.ApiCompatibility? && !e.TemporaryAuthentication?
  {
    match e
    case TooManyRequests(_) => CoolDown
    case Retrieval(_) => RetryAfterInterval
    case ApiCompatibility => RetryAfterInterval
    case TemporaryAuthentication => RetryAfterInterval
    case _ => Fatal
  }

  /** `startup` followed by the loop's entry: healthy, connecting, and the
      full resync due. */
  function Start(l: Loop): (r: Loop)
    ensures r.state == Connecting && r.healthy && r.fullSyncPending && r.lastUpdate == l.lastUpdate
  {
    l.(state := Connecting, healthy := true, fullSyncPending := true)
  }

  /** The work the next iteration runs. */
  function ActionFor(l: Loop): Action {
    if l.fullSyncPending then FetchAll else UpdateVehicles
  }

  /** The configured interval in seconds, or 300 when there is none. */
  function IntervalOr300(interval: Option<int>): int {
    interval.GetOr(FallbackInterval)
  }

  /** One iteration, given whether the stop event is set at the top of the
      loop, the current time, the configured interval and the outcome of
      the iteration's work. */
  function Step(l: Loop, stop: bool, now: int, interval: Option<int>, outcome: Outcome): (r: Next)
    ensures stop <==> r.Stopped?
    ensures r.Crashed? <==> !stop && outcome.Raised? && React(outcome.error) == Fatal
    ensures r.loop.state == Connected <==> !stop && outcome.Done?
    ensures r.loop.healthy <==> l.healthy && !r.Crashed?
    ensures r.loop.fullSyncPending <==> l.fullSyncPending && !(!stop && outcome.Done?)
  {
    if stop then Stopped(l.(state := Disconnected))
    else match outcome
      case Done =>
        Continue(l.(state := Connected, fullSyncPending := false, lastUpdate := Some(now)), IntervalOr300(interval))
      case Raised(e) =>
        match React(e)
        case CoolDown => Continue(l.(state := Error), QuotaCoolDown)
        case RetryAfterInterval => Continue(l.(state := Error), IntervalOr300(interval))
        case Fatal => Crashed(l.(state := Error, healthy := false), e)
  }

  /** The wait after an iteration: exactly 900 seconds after quota
      exceeded, whatever the interval; the configured interval (300 when
      unset) after success or a retrieval, API-compatibility or temporary
      authentication error. Success records the time of the update. */
  lemma BackoffSelection(l: Loop, now: int, interval: Option<int>, outcome: Outcome)
    ensures var r := Step(l, false, now, interval, outcome);
            && (outcome.Raised? && outcome.error.TooManyRequests? ==> r == Continue(l.(state := Error), 900))
            && (outcome.Raised? && (outcome.error.Retrieval? || outcome.error.ApiCompatibility?
                                    || outcome.error.TemporaryAuthentication?) ==>
                  r == Continue(l.(state := Error), if interval.Some? then interval.value else 300))
            && (outcome.Done? ==>
                  r.Continue? && r.wait == (if interval.Some? then interval.value else 300)
                  && r.loop.lastUpdate == Some(now))
  {
  }

  /** Any exception the loop does not classify sets ERROR, clears `healthy`
      and escapes: the connection state is not reset to DISCONNECTED. */
  lemma UnclassifiedIsFatal(l: Loop, now: int, interval: Option<int>, e: Error)
    requires !e.TooManyRequests? && !e.Retrieval? && !e.ApiCompatibility? && !e.TemporaryAuthentication?
    ensures Step(l, false, now, interval, Raised(e)) == Crashed(l.(state := Error, healthy := false), e)
  {
  }

  /** The connection-state transitions the loop is meant to follow:
      DISCONNECTED to CONNECTING at start, CONNECTING/CONNECTED/ERROR to
      CONNECTED or ERROR after a cycle, anything to DISCONNECTED on stop. */
  predicate AllowedTransition(a: ConnectionState, b: ConnectionState) {
    || (a == Disconnected && b == Connecting)
    || (a != Disconnected && (b == Connected || b == Error))
    || (a != Disconnected && b == Disconnected)
  }

  /** Once started, every iteration moves the connection state along an
      allowed transition and never back to CONNECTING. */
  lemma StepFollowsStateMachine(l: Loop, stop: bool, now: int, interval: Option<int>, outcome: Outcome)
    requires l.state != Disconnected
    ensures AllowedTransition(l.state, Step(l, stop, now, interval, outcome).loop.state)
    ensures Step(l, stop, now, interval, outcome).loop.state != Connecting
  {
  }

  /** One iteration's inputs. */
  datatype Event = Event(stop: bool, now: int, outcome: Outcome)

  datatype End = Running | StoppedEnd | CrashedEnd(error: Error)

  /** The actions run, the waits chosen, the final state, and why the run
      ended. */
  datatype Trace = Trace(actions: seq<Action>, waits: seq<int>, final: Loop, end: End)

  /** The loop run over a sequence of iterations, until it stops, crashes or
      the events run out. */
  function Run(l: Loop, interval: Option<int>, events: seq<Event>): (t: Trace)
    ensures |t.actions| <= |events|
    ensures t.end.Running? ==> |t.actions| == |events| && |t.waits| == |events|
    ensures t.end.StoppedEnd? ==> t.final.state == Disconnected
    ensures t.end.CrashedEnd? ==> t.final.state == Error && !t.final.healthy
    ensures !t.final.healthy ==> t.end.CrashedEnd? || !l.healthy
    ensures |events| > 0 && t.end.Running? ==> t.final.state == Connected || t.final.state == Error
    decreases |events|
  {
    if |events| == 0 then Trace([], [], l, Running)
    else
      var ev := events[0];
      match Step(l, ev.stop, ev.now, interval, ev.outcome)
      case Stopped(l') => Trace([], [], l', StoppedEnd)
      case Crashed(l', e) => Trace([ActionFor(l)], [], l', CrashedEnd(e))
      case Continue(l', w) =>
        var t := Run(l', interval, events[1..]);
        Trace([ActionFor(l)] + t.actions, [w] + t.waits, t.final, t.end)
  }

  /** The full resync is repeated until it first succeeds and never runs
      after that: in a run, iteration `i` runs `fetch_all` exactly when the
      resync was due at the start and no earlier iteration succeeded. */
  lemma {:induction false} FullSyncUntilFirstSuccess(l: Loop, interval: Option<int>, events: seq<Event>, i: int)
    requires 0 <= i < |Run(l, interval, events).actions|
    ensures Run(l, interval, events).actions[i] == FetchAll <==>
            l.fullSyncPending && forall j :: 0 <= j < i ==> events[j].outcome != Done
    decreases |events|
  {
    var ev := events[0];
    var r := Step(l, ev.stop, ev.now, interval, ev.outcome);
    if i > 0 {
      var l' := r.loop;
      FullSyncUntilFirstSuccess(l', interval, events[1..], i - 1);
      assert forall j :: 0 <= j < i - 1 ==> events[1..][j] == events[j + 1];
      if l.fullSyncPending && forall j :: 0 <= j < i ==> events[j].outcome != Done {
        assert events[0].outcome != Done;
      }
    }
  }

  /** From a started loop the first iteration always runs the full resync,
      and after a successful one only updates follow. */
  lemma FirstIterationResyncs(l: Loop, interval: Option<int>, events: seq<Event>)
    requires |Run(Start(l), interval, events).actions| > 0
    ensures Run(Start(l), interval, events).actions[0] == FetchAll
    ensures forall i :: 0 < i < |Run(Start(l), interval, events).actions| && events[0].outcome == Done ==>
              Run(Start(l), interval, events).actions[i] == UpdateVehicles
  {
    FullSyncUntilFirstSuccess(Start(l), interval, events, 0);
    forall i | 0 < i < |Run(Start(l), interval, events).actions| && events[0].outcome == Done
      ensures Run(Start(l), interval, events).actions[i] == UpdateVehicles
    {
      FullSyncUntilFirstSuccess(Start(l), interval, events, i);
    }
  }
}

=== FILE: response_cache.dfy ===
/** The per-session response cache: request URL to the decoded payload and
    the moment it was captured (integer seconds; the source stores an
    ISO-8601 string of `datetime.utcnow()`). A payload of `JNull` is the
    Python's `None`. */
module ResponseCache {
  import opened Wrappers
  import opened Json

  datatype CacheEntry = CacheEntry(data: Json, captured: int)

  type Cache = map<string, CacheEntry>

  /** An entry captured at `captured` is still usable at `now` under
      maximum age `maxAge` exactly when it is not older than `now - maxAge`. */
  predicate FreshAt(captured: int, now: int, maxAge: int) {
    !(captured < now - maxAge)
  }
}

=== FILE: session_manager.dfy ===
/** `SessionManager`: one authenticated session per (service, credential)
    pair, restored from and persisted to the host's token store and cache
    store under an identifier derived from a digest of the pair.

    SHA-512 is not modelled: every operation that needs it takes the digest
    as a function parameter `digest`, standing for "hex digest of the UTF-8
    encoding". */
module SessionManager {
  import opened Wrappers
  import opened Errors
  import opened ResponseCache
  import opened VolvoSession

  datatype Service = VolvoConnectedVehicle | VolvoEnergy | VolvoLocation

  /** `Service.value`, also its `str`. */
  function ServiceValue(s: Service): string {
    match s
    case VolvoConnectedVehicle => "VolvoConnectedVehicleAPI"
    case VolvoEnergy => "VolvoEnergyAPI"
    case VolvoLocation => "VolvoLocationAPI"
  }

  /** A credential. `SessionToken` defines neither `__eq__` nor `__hash__`,
      so two credential objects are the same key only when they are the same
      object: `identity` stands for that object identity, and the registry
      compares credentials by it alone. */
  datatype SessionToken = SessionToken(
    identity: nat,
    apiKeyPrimary: string,
    apiKeySecondary: string,
    accessToken: string)

  /** `str(SessionToken)`: the three fields joined by colons. */
  function TokenText(t: SessionToken): (r: string)
    ensures |r| == |t.apiKeyPrimary| + |t.apiKeySecondary| + |t.accessToken| + 2
    ensures r[..|t.apiKeyPrimary|] == t.apiKeyPrimary && r[|t.apiKeyPrimary|] == ':'
    ensures r[|t.apiKeyPrimary| + 1..|t.apiKeyPrimary| + 1 + |t.apiKeySecondary|] == t.apiKeySecondary
    ensures r[|r| - |t.accessToken| - 1] == ':' && r[|r| - |t.accessToken|..] == t.accessToken
  {
    t.apiKeyPrimary + ":" + t.apiKeySecondary + ":" + t.accessToken
  }

  /** The digest input: service value followed by the credential text. */
  function HashInput(s: Service, t: SessionToken): string {
    ServiceValue(s) + TokenText(t)
  }

  const IdentifierPrefix: string := "CarConnectivity-connector-volvo:"

  /** `generate_hash`. */
  function GenerateHash(digest: string -> string, s: Service, t: SessionToken): (h: string)
    ensures h == digest(ServiceValue(s) + TokenText(t))
  {
    digest(HashInput(s, t))
  }

  /** `generate_identifier`: the fixed prefix followed by the hash. */
  function GenerateIdentifier(digest: string -> string, s: Service, t: SessionToken): (id: string)
    ensures IdentifierPrefix <= id
    ensures id[|IdentifierPrefix|..] == digest(ServiceValue(s) + TokenText(t))
  {
    IdentifierPrefix + GenerateHash(digest, s, t)
  }

  /** Two identifiers are equal exactly when their digests are: the prefix
      carries no information. */
  lemma IdentifierEqualIffDigestEqual(digest: string -> string, s1: Service, t1: SessionToken,
                                      s2: Service, t2: SessionToken)
    ensures GenerateIdentifier(digest, s1, t1) == GenerateIdentifier(digest, s2, t2)
            <==> digest(HashInput(s1, t1)) == digest(HashInput(s2, t2))
  {
    var a := GenerateIdentifier(digest, s1, t1);
    var b := GenerateIdentifier(digest, s2, t2);
    if a == b {
      assert a[|IdentifierPrefix|..] == b[|IdentifierPrefix|..];
    }
  }

  /** The identifier depends on the credential only through its text: two
      credential objects with the same fields (distinct objects included)
      share one identifier. */
  lemma IdentifierDependsOnTextOnly(digest: string -> string, s: Service, t1: SessionToken, t2: SessionToken)
    requires TokenText(t1) == TokenText(t2)
    ensures GenerateIdentifier(digest, s, t1) == GenerateIdentifier(digest, s, t2)
  {
  }

  /** Different services never produce the same digest input, so they can
      only share an identifier through a digest collision. */
  lemma ServicesSeparateHashInputs(s1: Service, t1: SessionToken, s2: Service, t2: SessionToken)
    requires s1 != s2
    ensures HashInput(s1, t1) != HashInput(s2, t2)
  {
    var a := HashInput(s1, t1);
    var b := HashInput(s2, t2);
    assert a[5] == ServiceValue(s1)[5] && b[5] == ServiceValue(s2)[5];
    assert a[6] == ServiceValue(s1)[6] && b[6] == ServiceValue(s2)[6];
  }

  /** The colon separator is ambiguous: distinct credentials whose fields
      contain colons can render to the same text and thus the same
      identifier. */
  lemma ColonInKeysCollides(digest: string -> string)
    ensures var t1 := SessionToken(1, "a:b", "c", "t");
            var t2 := SessionToken(2, "a", "b:c", "t");
            t1.apiKeyPrimary != t2.apiKeyPrimary && GenerateIdentifier(digest, VolvoConnectedVehicle, t1)
                        == GenerateIdentifier(digest, VolvoConnectedVehicle, t2)
  {
    assert TokenText(SessionToken(1, "a:b", "c", "t")) == TokenText(SessionToken(2, "a", "b:c", "t"));
  }

  /** The record `persist` writes to the token store. */
  datatype TokenRecord = TokenRecord(token: Option<string>)

  /** A registered session, under its (service, credential) key. */
  datatype Entry = Entry(service: Service, token: SessionToken, session: Session)

  /** The manager's state: the host's two stores, and the live sessions in
      insertion order (the iteration order of a Python dict). */
  datatype Registry = Registry(
    tokenstore: map<string, TokenRecord>,
    cache: map<string, Option<Cache>>,
    sessions: seq<Entry>)

  /** Whether the entry is registered under the key: the same service and
      the same credential object. */
  predicate HasKey(e: Entry, s: Service, t: SessionToken) {
    e.service == s && e.token.identity == t.identity
  }

  /** No (service, credential) key is registered twice. */
  predicate DistinctKeys(entries: seq<Entry>) {
    forall i, j :: 0 <= i < j < |entries| ==> !HasKey(entries[i], entries[j].service, entries[j].token)
  }

  /** Position of the key in the session list, if it is registered. */
  function IndexOf(entries: seq<Entry>, s: Service, t: SessionToken): (r: Option<nat>)
    ensures r.Some? ==> r.value < |entries| && HasKey(entries[r.value], s, t)
    ensures r.None? <==> forall i :: 0 <= i < |entries| ==> !HasKey(entries[i], s, t)
  {
    if |entries| == 0 then None
    else if HasKey(entries[|entries| - 1], s, t) then Some(|entries| - 1)
    else
      var r := IndexOf(entries[..|entries| - 1], s, t);
      assert forall i :: 0 <= i < |entries| - 1 ==> entries[..|entries| - 1][i] == entries[i];
      r
  }

  /** Appending a key not yet registered keeps keys distinct and makes the
      new entry the one found for its key. */
  lemma RegisterNewKey(entries: seq<Entry>, e: Entry)
    requires DistinctKeys(entries)
    requires IndexOf(entries, e.service, e.token).None?
    ensures DistinctKeys(entries + [e])
    ensures IndexOf(entries + [e], e.service, e.token) == Some(|entries|)
  {
    var es := entries + [e];
    forall i, j | 0 <= i < j < |es|
      ensures !HasKey(es[i], es[j].service, es[j].token)
    {
      if j == |entries| {
        assert es[i] == entries[i];
      } else {
        assert es[i] == entries[i] && es[j] == entries[j];
      }
    }
  }

  /** The session registered under a key, if any. */
  function Lookup(reg: Registry, s: Service, t: SessionToken): Option<Session> {
    match IndexOf(reg.sessions, s, t)
    case Some(i) => Some(reg.sessions[i].session)
    case None => None
  }

  /** The manager's constructor: given stores, no live sessions. */
  function NewRegistry(tokenstore: map<string, TokenRecord>, cache: map<string, Option<Cache>>): (reg: Registry)
    ensures DistinctKeys(reg.sessions)
    ensures forall s, t :: Lookup(reg, s, t).None?
  {
    Registry(tokenstore, cache, [])
  }

  /** `get_session`: return the registered session for the key; otherwise
      build one for the connected-vehicle service, seeded with the
      credential's own access token and the cache stored under the
      identifier (the empty cache when there is none), and register it.
      Other services are refused. The token stored under the identifier is
      read by the source but never used, so it plays no part here. */
  function GetSession(reg: Registry, digest: string -> string, s: Service, t: SessionToken): (r: Result<(Session, Registry), Error>)
    requires DistinctKeys(reg.sessions)
    ensures Lookup(reg, s, t).Some? ==> r == Success((Lookup(reg, s, t).value, reg))
    ensures Lookup(reg, s, t).None? && s != VolvoConnectedVehicle ==>
              r == Failure(ValueError("Unsupported service: " + ServiceValue(s)))
    ensures r.Failure? ==> Lookup(reg, s, t).None? && s != VolvoConnectedVehicle
    ensures r.Success? ==>
              && DistinctKeys(r.value.1.sessions)
              && Lookup(r.value.1, s, t) == Some(r.value.0)
              && r.value.1.tokenstore == reg.tokenstore && r.value.1.cache == reg.cache
  {
    match IndexOf(reg.sessions, s, t)
    case Some(i) => Success((reg.sessions[i].session, reg))
    case None =>
      var id := GenerateIdentifier(digest, s, t);
      var cache := if id in reg.cache then reg.cache[id] else Some(map[]);
      if s == VolvoConnectedVehicle then
        var session := NewSession(t.apiKeyPrimary, t.apiKeySecondary, Some(t.accessToken), None, cache);
        var reg' := reg.(sessions := reg.sessions + [Entry(s, t, session)]);
        RegisterNewKey(reg.sessions, Entry(s, t, session));
        Success((session, reg'))
      else
        Failure(ValueError("Unsupported service: " + ServiceValue(s)))
  }

  /** A session newly created by `get_session` uses the credential's access
      token, the vendor key header, and the cache stored under its
      identifier (or an empty one); earlier sessions stay as they were. */
  lemma GetSessionCreates(reg: Registry, digest: string -> string, t: SessionToken)
    requires DistinctKeys(reg.sessions)
    requires Lookup(reg, VolvoConnectedVehicle, t).None?
    ensures var r := GetSession(reg, digest, VolvoConnectedVehicle, t);
            var id := GenerateIdentifier(digest, VolvoConnectedVehicle, t);
            && r.Success?
            && Token(r.value.0) == Some(t.accessToken)
            && r.value.0.headers[ApiKeyHeader] == t.apiKeyPrimary
            && r.value.0.cache == (if id in reg.cache then reg.cache[id] else Some(map[]))
            && r.value.1.sessions == reg.sessions + [Entry(VolvoConnectedVehicle, t, r.value.0)]
  {
  }

  /** Asking twice with the same credential object hands back the same
      session and registers nothing the second time. */
  lemma GetSessionTwiceReuses(reg: Registry, digest: string -> string, s: Service, t: SessionToken)
    requires DistinctKeys(reg.sessions)
    requires GetSession(reg, digest, s, t).Success?
    ensures var first := GetSession(reg, digest, s, t).value;
            GetSession(first.1, digest, s, t) == Success(first)
  {
  }

  /** Reuse is by object identity: a second credential object with the same
      fields gets a session of its own, although both share one identifier. */
  lemma EqualFieldsDistinctObjectsDoNotShare(reg: Registry, digest: string -> string, t1: SessionToken, t2: SessionToken)
    requires DistinctKeys(reg.sessions)
    requires Lookup(reg, VolvoConnectedVehicle, t1).None? && Lookup(reg, VolvoConnectedVehicle, t2).None?
    requires t1.identity != t2.identity
    requires TokenText(t1) == TokenText(t2)
    ensures var reg1 := GetSession(reg, digest, VolvoConnectedVehicle, t1).value.1;
            var reg2 := GetSession(reg1, digest, VolvoConnectedVehicle, t2).value.1;
            |reg2.sessions| == |reg.sessions| + 2
            && GenerateIdentifier(digest, VolvoConnectedVehicle, t1) == GenerateIdentifier(digest, VolvoConnectedVehicle, t2)
  {
    var reg1 := GetSession(reg, digest, VolvoConnectedVehicle, t1).value.1;
    assert reg1.sessions == reg.sessions + [Entry(VolvoConnectedVehicle, t1, GetSession(reg, digest, VolvoConnectedVehicle, t1).value.0)];
    assert Lookup(reg1, VolvoConnectedVehicle, t2).None?;
  }

  /** Identifier of a registered session. */
  function EntryId(digest: string -> string, e: Entry): string {
    GenerateIdentifier(digest, e.service, e.token)
  }

  /** The identifiers of the given sessions. */
  function Ids(digest: string -> string, entries: seq<Entry>): set<string>
    decreases |entries|
  {
    if |entries| == 0 then {}
    else Ids(digest, entries[..|entries| - 1]) + {EntryId(digest, entries[|entries| - 1])}
  }

  /** The stores after writing the sessions in order; a later session with
      the same identifier overwrites an earlier one. Both stores gain
      exactly the sessions' identifiers. */
  function WriteAll(digest: string -> string, tokenstore: map<string, TokenRecord>,
                    cache: map<string, Option<Cache>>, entries: seq<Entry>): (r: (map<string, TokenRecord>, map<string, Option<Cache>>))
    ensures r.0.Keys == tokenstore.Keys + Ids(digest, entries)
    ensures r.1.Keys == cache.Keys + Ids(digest, entries)
    decreases |entries|
  {
    if |entries| == 0 then (tokenstore, cache)
    else
      var w := WriteAll(digest, tokenstore, cache, entries[..|entries| - 1]);
      var e := entries[|entries| - 1];
      var id := EntryId(digest, e);
      (w.0[id := TokenRecord(Token(e.session))], w.1[id := e.session.cache])
  }

  /** `persist`, corrected so that it completes: every live session's token
      and cache are written under its identifier. */
  function Persist(reg: Registry, digest: string -> string): (r: Registry)
    ensures r.sessions == reg.sessions
    ensures |reg.sessions| > 0 ==> EntryId(digest, reg.sessions[|reg.sessions| - 1]) in r.cache
  {
    var w := WriteAll(digest, reg.tokenstore, reg.cache, reg.sessions);
    reg.(tokenstore := w.0, cache := w.1)
  }

  /** After writing, a session that no later session shares an identifier
      with has its token and cache stored under its identifier. */
  lemma {:induction false} WriteAllStores(digest: string -> string, tokenstore: map<string, TokenRecord>,
                                           cache: map<string, Option<Cache>>, entries: seq<Entry>, k: int)
    requires 0 <= k < |entries|
    requires forall j :: k < j < |entries| ==> EntryId(digest, entries[j]) != EntryId(digest, entries[k])
    ensures var w := WriteAll(digest, tokenstore, cache, entries);
            var id := EntryId(digest, entries[k]);
            id in w.0 && w.0[id] == TokenRecord(Token(entries[k].session))
            && id in w.1 && w.1[id] == entries[k].session.cache
    decreases |entries|
  {
    if k < |entries| - 1 {
      var init := entries[..|entries| - 1];
      forall j | k < j < |init|
        ensures EntryId(digest, init[j]) != EntryId(digest, init[k])
      {
        assert init[j] == entries[j];
      }
      assert init[k] == entries[k];
      WriteAllStores(digest, tokenstore, cache, init, k);
    }
  }

  /** Writing never touches an identifier that belongs to no session. */
  lemma {:induction false} WriteAllLeavesOthers(digest: string -> string, tokenstore: map<string, TokenRecord>,
                                                cache: map<string, Option<Cache>>, entries: seq<Entry>, id: string)
    requires forall i :: 0 <= i < |entries| ==> EntryId(digest, entries[i]) != id
    ensures var w := WriteAll(digest, tokenstore, cache, entries);
            (id in w.0 <==> id in tokenstore) && (id in tokenstore ==> w.0[id] == tokenstore[id])
            && (id in w.1 <==> id in cache) && (id in cache ==> w.1[id] == cache[id])
    decreases |entries|
  {
    if |entries| > 0 {
      var init := entries[..|entries| - 1];
      forall i | 0 <= i < |init| ensures EntryId(digest, init[i]) != id {
        assert init[i] == entries[i];
      }
      WriteAllLeavesOthers(digest, tokenstore, cache, init, id);
    }
  }

  /** Sessions of a registry have pairwise distinct identifiers. */
  predicate DistinctIds(digest: string -> string, entries: seq<Entry>) {
    forall i, j :: 0 <= i < j < |entries| ==> EntryId(digest, entries[i]) != EntryId(digest, entries[j])
  }

  /** `persist` (corrected) stores a live session's token and cache under its
      identifier whenever no other live session shares that identifier. */
  lemma PersistStoresSession(reg: Registry, digest: string -> string, i: int)
    requires DistinctIds(digest, reg.sessions)
    requires 0 <= i < |reg.sessions|
    ensures var r := Persist(reg, digest);
            var id := EntryId(digest, reg.sessions[i]);
            id in r.tokenstore && r.tokenstore[id] == TokenRecord(Token(reg.sessions[i].session))
            && id in r.cache && r.cache[id] == reg.sessions[i].session.cache
  {
    WriteAllStores(digest, reg.tokenstore, reg.cache, reg.sessions, i);
  }

  /** `persist` (corrected) leaves every identifier of no live session as it
      was, and changes no live session. */
  lemma PersistLeavesOthers(reg: Registry, digest: string -> string, id: string)
    requires forall i :: 0 <= i < |reg.sessions| ==> EntryId(digest, reg.sessions[i]) != id
    ensures var r := Persist(reg, digest);
            && r.sessions == reg.sessions
            && (id in r.tokenstore <==> id in reg.tokenstore)
            && (id in reg.tokenstore ==> r.tokenstore[id] == reg.tokenstore[id])
            && (id in r.cache <==> id in reg.cache)
            && (id in reg.cache ==> r.cache[id] == reg.cache[id])
  {
    WriteAllLeavesOthers(digest, reg.tokenstore, reg.cache, reg.sessions, id);
  }

  /** `persist` as shipped. The session class defines no `metadata`
      attribute, so reading `session.metadata` raises `AttributeError` right
      after the first session's token has been written: the loop never
      reaches the cache store or any later session. */
  function PersistAsShipped(reg: Registry, digest: string -> string): (r: (Registry, Option<Error>))
    ensures r.1.None? <==> |reg.sessions| == 0
    ensures r.0.cache == reg.cache && r.0.sessions == reg.sessions
    ensures |reg.sessions| > 0 ==>
              r.0.tokenstore == reg.tokenstore[EntryId(digest, reg.sessions[0]) := TokenRecord(Token(reg.sessions[0].session))]
  {
    if |reg.sessions| == 0 then (reg, None)
    else
      var e := reg.sessions[0];
      var id := EntryId(digest, e);
      (reg.(tokenstore := reg.tokenstore[id := TokenRecord(Token(e.session))]), Some(AttributeError("metadata")))
  }

  /** The shipped `persist` fails on every registry holding a session and
      leaves the cache store as it was, while the corrected one stores the
      session's cache. Since `persist` is the only writer of a session's
      identifier in the cache store, an identifier absent from it stays
      absent, and every later run starts from an empty cache. */
  lemma PersistAsShippedLosesCache(reg: Registry, digest: string -> string)
    requires |reg.sessions| == 1
    requires EntryId(digest, reg.sessions[0]) !in reg.cache
    ensures PersistAsShipped(reg, digest).1 == Some(AttributeError("metadata"))
    ensures PersistAsShipped(reg, digest).0.cache == reg.cache
    ensures EntryId(digest, reg.sessions[0]) !in PersistAsShipped(reg, digest).0.cache
    ensures var id := EntryId(digest, reg.sessions[0]);
            Persist(reg, digest).cache[id] == reg.sessions[0].session.cache
  {
    WriteAllStores(digest, reg.tokenstore, reg.cache, reg.sessions, 0);
  }
}

=== FILE: vehicles.dfy ===
/** `Connector.fetch_vehicles`: list the account's vehicles, add the ones the
    garage does not know, read each one's details, and remove the vehicles
    this connector manages that the listing no longer contains. Every
    request goes through `Fetch.FetchData`; the network answers each URL
    through the `net` parameter. */
module Vehicles {
  import opened Wrappers
  import opened Json
  import opened Errors
  import opened VolvoSession
  import opened Fetch

  datatype SteeringPosition = Left | Right | Unknown

  /** The fields of a garage vehicle that `fetch_vehicles` reads or writes.
      `managedHere` says whether this connector manages the vehicle. */
  datatype Vehicle = Vehicle(
    managedHere: bool,
    modelYear: Option<Json>,
    model: Option<Json>,
    steering: Option<SteeringPosition>)

  /** The host's garage, keyed by VIN. */
  type Garage = map<string, Vehicle>

  const VehiclesUrl: string := "https://api.volvocars.com/connected-vehicle/v2/vehicles"

  function VehicleUrl(vin: string): string {
    VehiclesUrl + "/" + vin
  }

  /** A vehicle this connector has just created for a VIN. */
  const NewVehicle: Vehicle := Vehicle(true, None, None, None)

  /** The steering side a `descriptions.steering` value denotes. */
  function SteeringFrom(j: Json): (p: SteeringPosition)
    ensures p == Left <==> j == JStr("LEFT")
    ensures p == Right <==> j == JStr("RIGHT")
  {
    if j == JStr("LEFT") then Left
    else if j == JStr("RIGHT") then Right
    else Unknown
  }

  /** Only the exact strings `LEFT` and `RIGHT` name a side; every other
      value, `SIDEWAYS` or a number alike, maps to `Unknown` rather than
      failing. */
  lemma SteeringMapping(j: Json)
    ensures SteeringFrom(j) == Left <==> j == JStr("LEFT")
    ensures SteeringFrom(j) == Right <==> j == JStr("RIGHT")
    ensures j != JStr("LEFT") && j != JStr("RIGHT") ==> SteeringFrom(j) == Unknown
    ensures SteeringFrom(JStr("SIDEWAYS")) == Unknown
  {
  }

  /** Copy the detail document's `modelYear`, `descriptions.model` and
      `descriptions.steering` onto the vehicle; absent or null members leave
      the vehicle's value as it was. */
  function ApplyDetails(v: Vehicle, details: Json): (r: Vehicle)
    ensures r.managedHere == v.managedHere
    ensures Member(details, "data").None? ==> r == v
  {
    match Member(details, "data")
    case None => v
    case Some(d) =>
      var v1 := if Member(d, "modelYear").Some? then v.(modelYear := Member(d, "modelYear")) else v;
      match Member(d, "descriptions")
      case None => v1
      case Some(desc) =>
        var v2 := if Member(desc, "model").Some? then v1.(model := Member(desc, "model")) else v1;
        match Member(desc, "steering")
        case None => v2
        case Some(st) => v2.(steering := Some(SteeringFrom(st)))
  }

  /** For a detail document `{"data": d}`, each of model year, model and
      steering side is taken from the document when its member is present
      and not null, and otherwise kept. */
  lemma DetailsApplied(v: Vehicle, d: map<string, Json>)
    ensures var r := ApplyDetails(v, JObj(map["data" := JObj(d)]));
            var desc := if "descriptions" in d && d["descriptions"].JObj? then d["descriptions"].fields else map[];
            && r.managedHere == v.managedHere
            && r.modelYear == (if "modelYear" in d && d["modelYear"] != JNull then Some(d["modelYear"]) else v.modelYear)
            && r.model == (if "model" in desc && desc["model"] != JNull then Some(desc["model"]) else v.model)
            && r.steering == (if "steering" in desc && desc["steering"] != JNull
                              then Some(SteeringFrom(desc["steering"])) else v.steering)
  {
  }

  /** A detail document whose `descriptions.steering` is present and not
      null sets the vehicle's steering side from it. */
  lemma DetailsSetSteering(v: Vehicle, d: map<string, Json>, desc: map<string, Json>, st: Json)
    requires st != JNull && "steering" in desc && desc["steering"] == st
    requires "descriptions" in d && d["descriptions"] == JObj(desc)
    ensures ApplyDetails(v, JObj(map["data" := JObj(d)])).steering == Some(SteeringFrom(st))
  {
  }

  /** The entries of the listing document's `data` array. */
  function ListedEntries(data: Json): seq<Json> {
    if Member(data, "data").Some? && Member(data, "data").value.JArr? then
      Member(data, "data").value.items
    else []
  }

  /** The VIN of a listing entry, when it has a non-null string `vin`. */
  function VinOf(entry: Json): Option<string> {
    match Member(entry, "vin")
    case Some(JStr(vin)) => Some(vin)
    case _ => None
  }

  /** Every entry carries a VIN. */
  predicate AllHaveVins(entries: seq<Json>) {
    forall i :: 0 <= i < |entries| ==> VinOf(entries[i]).Some?
  }

  /** The VINs the entries carry. */
  function ListedVins(entries: seq<Json>): set<string> {
    set i | 0 <= i < |entries| && VinOf(entries[i]).Some? :: VinOf(entries[i]).value
  }

  /** State after walking the listing: the garage, the session (its cache
      grows with every fetched detail), the VINs seen so far and the error
      that stopped the walk, if any. */
  datatype Walk = Walk(garage: Garage, session: Session, seen: set<string>, error: Option<Error>)

  /** The loop over the listing's entries. A missing VIN raises `APIError`;
      otherwise the VIN is noted as seen, a new vehicle is added when the
      garage has none, and the details are fetched and applied. A failed
      fetch stops the walk with everything done so far kept. */
  function WalkListing(g: Garage, s: Session, maxAge: Option<int>, now: int,
                       net: string -> Exchange, login: Login, entries: seq<Json>): (w: Walk)
    ensures w.garage.Keys == g.Keys + w.seen
    ensures forall vin :: vin in g ==> w.garage[vin].managedHere == g[vin].managedHere
    ensures forall vin :: vin in w.garage && vin !in g ==> w.garage[vin].managedHere
    ensures w.seen <= ListedVins(entries)
    ensures w.error.None? ==> AllHaveVins(entries) && w.seen == ListedVins(entries)
    ensures !AllHaveVins(entries) ==> w.error.Some?
    decreases |entries|
  {
    if |entries| == 0 then Walk(g, s, {}, None)
    else match VinOf(entries[0])
      case None => Walk(g, s, {}, Some(Api("Could not fetch vehicle data, VIN missing")))
      case Some(vin) =>
        var g1 := if vin in g then g else g[vin := NewVehicle];
        var url := VehicleUrl(vin);
        var f := FetchData(s, maxAge, url, DefaultFlags, now, net(url), login);
        if f.result.Failure? then Walk(g1, f.session, {vin}, Some(f.result.error))
        else
          var g2 := g1[vin := ApplyDetails(g1[vin], f.result.value)];
          var rest := WalkListing(g2, f.session, maxAge, now, net, login, entries[1..]);
          ListedVinsCons(entries);
          Walk(rest.garage, rest.session, {vin} + rest.seen, rest.error)
  }

  /** The VINs of a listing are those of its head and of its tail. */
  lemma ListedVinsCons(entries: seq<Json>)
    requires |entries| > 0
    ensures ListedVins(entries) == (if VinOf(entries[0]).Some? then {VinOf(entries[0]).value} else {})
                                   + ListedVins(entries[1..])
    ensures AllHaveVins(entries) <==> VinOf(entries[0]).Some? && AllHaveVins(entries[1..])
  {
    var tail := entries[1..];
    forall x | x in ListedVins(entries)
      ensures x in (if VinOf(entries[0]).Some? then {VinOf(entries[0]).value} else {}) + ListedVins(tail)
    {
      var i :| 0 <= i < |entries| && VinOf(entries[i]).Some? && x == VinOf(entries[i]).value;
      if i > 0 {
        assert tail[i - 1] == entries[i];
      }
    }
    forall x | x in ListedVins(tail) ensures x in ListedVins(entries) {
      var i :| 0 <= i < |tail| && VinOf(tail[i]).Some? && x == VinOf(tail[i]).value;
      assert entries[i + 1] == tail[i];
    }
    if AllHaveVins(entries) {
      forall i | 0 <= i < |tail| ensures VinOf(tail[i]).Some? {
        assert tail[i] == entries[i + 1];
      }
    }
    if VinOf(entries[0]).Some? && AllHaveVins(tail) {
      forall i | 0 <= i < |entries| ensures VinOf(entries[i]).Some? {
        if i > 0 {
          assert entries[i] == tail[i - 1];
        }
      }
    }
  }

  /** Drop every vehicle this connector manages whose VIN was not seen. */
  function RemoveUnlisted(g: Garage, seen: set<string>): (r: Garage)
    ensures forall vin :: vin in r <==> vin in g && (vin in seen || !g[vin].managedHere)
    ensures forall vin :: vin in r ==> r[vin] == g[vin]
  {
    map vin | vin in g && (vin in seen || !g[vin].managedHere) :: g[vin]
  }

  /** Result of `fetch_vehicles`: the garage and session afterwards and the
      error raised, if any. */
  datatype Outcome = Outcome(garage: Garage, session: Session, error: Option<Error>)

  /** The listing fetch. */
  function FetchListing(s: Session, maxAge: Option<int>, now: int, net: string -> Exchange, login: Login): Fetched {
    FetchData(s, maxAge, VehiclesUrl, DefaultFlags, now, net(VehiclesUrl), login)
  }

  /** `fetch_vehicles`, ending with `update_vehicles`, which changes nothing
      because `decide_state` is empty. */
  function FetchVehicles(g: Garage, s: Session, maxAge: Option<int>, now: int,
                         net: string -> Exchange, login: Login): (r: Outcome)
    ensures r.error.Some? ==> g.Keys <= r.garage.Keys
    ensures forall vin :: vin in g && !g[vin].managedHere ==> vin in r.garage && !r.garage[vin].managedHere
  {
    var listing := FetchListing(s, maxAge, now, net, login);
    if listing.result.Failure? then Outcome(g, listing.session, Some(listing.result.error))
    else
      var w := WalkListing(g, listing.session, maxAge, now, net, login, ListedEntries(listing.result.value));
      if w.error.Some? then Outcome(w.garage, w.session, w.error)
      else Outcome(RemoveUnlisted(w.garage, w.seen), w.session, None)
  }

  /** After a successful `fetch_vehicles` the garage holds exactly the listed
      VINs plus the vehicles other connectors manage; every vehicle this
      connector manages is listed, and every listed VIN that was new is
      managed here. */
  lemma FetchVehiclesReconciles(g: Garage, s: Session, maxAge: Option<int>, now: int,
                                net: string -> Exchange, login: Login)
    requires FetchVehicles(g, s, maxAge, now, net, login).error.None?
    ensures var listing := FetchListing(s, maxAge, now, net, login);
            var r := FetchVehicles(g, s, maxAge, now, net, login);
            && listing.result.Success?
            && AllHaveVins(ListedEntries(listing.result.value))
            && (forall vin :: vin in r.garage <==>
                  vin in ListedVins(ListedEntries(listing.result.value)) || (vin in g && !g[vin].managedHere))
            && (forall vin :: vin in r.garage && r.garage[vin].managedHere ==>
                  vin in ListedVins(ListedEntries(listing.result.value)))
            && (forall vin :: vin in r.garage && vin !in g ==> r.garage[vin].managedHere)
  {
  }

  /** A listing without a `data` array (or with an empty one) removes every
      vehicle this connector manages and keeps all others. */
  lemma EmptyListingRemovesManaged(g: Garage, s: Session, maxAge: Option<int>, now: int,
                                   net: string -> Exchange, login: Login)
    requires var listing := FetchListing(s, maxAge, now, net, login);
             listing.result.Success? && ListedEntries(listing.result.value) == []
    ensures var r := FetchVehicles(g, s, maxAge, now, net, login);
            r.error.None? && forall vin :: vin in r.garage <==> vin in g && !g[vin].managedHere
  {
  }
}

=== FILE: volvo_session.dfy ===
/** `VolvoSession`: the authenticated HTTP session. It fixes the vendor API
    key header at construction, refuses non-HTTPS URLs, injects the bearer
    token into every request and carries the retry configuration and the
    response cache. */
module VolvoSession {
  import opened Wrappers
  import opened Errors
  import opened AuthUtil
  import opened ResponseCache

  const ApiKeyHeader: string := "vcc-api-key"
  const SecureScheme: string := "https://"

  /** HTTP status the retry adapter retries (internal server error). */
  const ServerError: int := 500
  /** HTTP status excluded from retrying (section 4 of RFC 6585, too many requests). */
  const TooManyRequestsStatus: int := 429
  /** The retry backoff factor 0.1, held in thousandths. */
  const BackoffFactorMillis: int := 100

  /** The configuration handed to the `BlacklistRetry` adapter. */
  datatype RetryPolicy = RetryPolicy(
    total: int,
    backoffFactorMillis: int,
    statusForcelist: set<int>,
    statusBlacklist: set<int>,
    raiseOnStatus: bool)

  /** The session's state. `retries` is the last value given to the
      `retries` setter (`False` is 0); `adapter` is the retry policy mounted
      for `https://`, if any. */
  datatype Session = Session(
    headers: Headers,
    accessToken: Option<string>,
    timeout: Option<int>,
    retries: int,
    adapter: Option<RetryPolicy>,
    cache: Option<Cache>)

  /** A request as handed on to the underlying HTTP client. */
  datatype Prepared = Prepared(
    verb: string,
    url: string,
    headers: Headers,
    body: Option<string>,
    timeout: Option<int>)

  /** The session constructor. Only the primary API key is used: it becomes
      the session-wide `vcc-api-key` header; the secondary key is ignored. */
  function NewSession(primaryKey: string, secondaryKey: string, accessToken: Option<string>,
                      timeout: Option<int>, cache: Option<Cache>): (s: Session)
    ensures s.headers == map[ApiKeyHeader := primaryKey]
    ensures Token(s) == accessToken
    ensures s.retries == 0 && s.adapter == None
    ensures s.timeout == timeout && s.cache == cache
  {
    Session(map[ApiKeyHeader := primaryKey], accessToken, timeout, 0, None, cache)
  }

  /** The `token` property: the access token the session was built with. */
  function Token(s: Session): (t: Option<string>)
    ensures t == s.accessToken
  {
    s.accessToken
  }

  /** Nothing the session does changes its token: the property returns the
      constructor's access token, after any retries setting and any
      request. */
  lemma TokenFixedAtConstruction(primaryKey: string, secondaryKey: string, accessToken: Option<string>,
                                 timeout: Option<int>, cache: Option<Cache>, n: int)
    ensures var s := NewSession(primaryKey, secondaryKey, accessToken, timeout, cache);
            Token(s) == accessToken && Token(SetRetries(s, n)) == accessToken
  {
  }

  /** The retry policy the `retries` setter mounts for a truthy value `n`. */
  function PolicyFor(n: int): RetryPolicy {
    RetryPolicy(n, BackoffFactorMillis, {ServerError}, {TooManyRequestsStatus}, false)
  }

  /** The `retries` setter: always records the value; a truthy value also
      mounts a fresh retry policy, a falsy one leaves any mounted policy in
      place. */
  function SetRetries(s: Session, n: int): (r: Session)
    ensures r.retries == n
    ensures n != 0 ==> r.adapter == Some(RetryPolicy(n, 100, {500}, {429}, false))
    ensures n == 0 ==> r.adapter == s.adapter
    ensures r.(retries := s.retries, adapter := s.adapter) == s
  {
    if n != 0 then s.(retries := n, adapter := Some(PolicyFor(n)))
    else s.(retries := n)
  }

  /** Whether the mounted policy retries a reply with status `code`
      internally. `retryAfter` says whether the reply would otherwise be
      retried for carrying a `Retry-After` header; a blacklisted status is
      never retried. */
  predicate RetriesStatus(p: RetryPolicy, code: int, retryAfter: bool) {
    p.total != 0 && code !in p.statusBlacklist && (code in p.statusForcelist || retryAfter)
  }

  /** Every policy a session can carry keeps 429 out of the retry machinery. */
  predicate QuotaIsolated(s: Session) {
    s.adapter.None? || TooManyRequestsStatus in s.adapter.value.statusBlacklist
  }

  /** The `retries` setter keeps rate-limit replies visible to the caller,
      whatever value it is given, and a truthy value makes server errors
      retryable. */
  lemma SetRetriesIsolatesQuota(s: Session, n: int, retryAfter: bool)
    requires QuotaIsolated(s)
    ensures QuotaIsolated(SetRetries(s, n))
    ensures var a := SetRetries(s, n).adapter;
            a.Some? ==> !RetriesStatus(a.value, TooManyRequestsStatus, retryAfter)
    ensures n != 0 ==> RetriesStatus(SetRetries(s, n).adapter.value, ServerError, retryAfter)
  {
  }

  /** Lower-cases ASCII letters and leaves every other character alone. */
  function LowerChar(c: char): char {
    if 'A' <= c <= 'Z' then (c as int + 32) as char else c
  }

  function LowerAscii(s: string): (r: string)
    ensures |r| == |s|
    ensures forall i :: 0 <= i < |s| ==> r[i] == LowerChar(s[i])
  {
    seq(|s|, i requires 0 <= i < |s| => LowerChar(s[i]))
  }

  /** oauthlib's `is_secure_transport`: the URL, lower-cased, starts with
      `https://`. */
  predicate IsSecureTransport(url: string) {
    SecureScheme <= LowerAscii(url)
  }

  /** The scheme check is a case-insensitive prefix test: it looks at the
      first eight characters and nothing else. */
  lemma SecureTransportIsSchemePrefix(url: string)
    ensures IsSecureTransport(url) <==>
            |url| >= 8 && forall i :: 0 <= i < 8 ==> LowerChar(url[i]) == SecureScheme[i]
  {
    if |url| >= 8 && forall i :: 0 <= i < 8 ==> LowerChar(url[i]) == SecureScheme[i] {
      assert LowerAscii(url)[..8] == SecureScheme;
    }
  }

  /** Plain-HTTP URLs are refused. */
  lemma PlainHttpIsInsecure(rest: string)
    ensures !IsSecureTransport("http://" + rest)
  {
    var u := "http://" + rest;
    assert LowerAscii(u)[4] == ':';
  }

  /** `add_token`: refuse an insecure URI, pick the override token or else
      the stored one (failing when neither exists), and return the URI and
      body untouched with the bearer header added. */
  function AddToken(s: Session, uri: string, body: Option<string>, headers: Option<Headers>,
                    token: Option<string>): (r: Result<(string, Headers, Option<string>), Error>)
    ensures !IsSecureTransport(uri) ==> r == Failure(InsecureTransport)
    ensures IsSecureTransport(uri) && token.None? && s.accessToken.None? ==> r == Failure(MissingToken)
    ensures r.Success? <==> IsSecureTransport(uri) && (token.Some? || s.accessToken.Some?)
    ensures r.Success? ==>
              var used := if token.Some? then token.value else s.accessToken.value;
              r.value == (uri, AddBearerAuthHeader(used, headers), body)
  {
    if !IsSecureTransport(uri) then Failure(InsecureTransport)
    else if token.None? && s.accessToken.None? then Failure(MissingToken)
    else
      var used := if token.Some? then token.value else s.accessToken.value;
      Success((uri, AddBearerAuthHeader(used, headers), body))
  }

  /** `request`: the transport check comes before anything else, the token
      is added as `add_token` does, and a missing timeout falls back to the
      session's. The network exchange itself is outside the model: the
      result is the request the HTTP client would send. */
  function Request(s: Session, verb: string, url: string, body: Option<string>,
                   headers: Option<Headers>, timeout: Option<int>, token: Option<string>): (r: Result<Prepared, Error>)
    ensures !IsSecureTransport(url) ==> r == Failure(InsecureTransport)
    ensures r.Failure? ==> r.error == InsecureTransport || r.error == MissingToken
    ensures r.Success? <==> IsSecureTransport(url) && (token.Some? || s.accessToken.Some?)
    ensures r.Success? ==>
              && r.value.verb == verb && r.value.url == url && r.value.body == body
              && r.value.timeout == (if timeout.None? then s.timeout else timeout)
              && Authorization in r.value.headers
              && r.value.headers[Authorization] == BearerValue(token.GetOr(s.accessToken.GetOr("")))
  {
    if !IsSecureTransport(url) then Failure(InsecureTransport)
    else
      match AddToken(s, url, body, headers, token)
      case Failure(e) => Failure(e)
      case Success(t) =>
        var effective := if timeout.None? then s.timeout else timeout;
        Success(Prepared(verb, t.0, t.1, t.2, effective))
  }

  /** The GET the fetch issues (`session.get(url, allow_redirects=False)`):
      no body, no extra headers, default timeout, stored token. */
  function Get(s: Session, url: string): (r: Result<Prepared, Error>)
    ensures r.Success? <==> IsSecureTransport(url) && s.accessToken.Some?
    ensures r.Success? ==> r.value.headers == map[Authorization := BearerValue(s.accessToken.value)]
    ensures r.Success? ==> r.value.timeout == s.timeout
  {
    Request(s, "GET", url, None, None, None, None)
  }
}

=== FILE: wrappers.dfy ===
/** Failure-carrying datatypes used throughout the model: Python's `None`
    and raised exceptions become `Option` and `Result` values. */
module Wrappers {

  /** A value that may be absent (Python's `None`). */
  datatype Option<+T> = None | Some(value: T) {

    /** The wrapped value, or `default` when absent. */
    function GetOr(default: T): T {
      match this
      case Some(v) => v
      case None => default
    }
  }

  /** Either a computed value or the exception that was raised instead. */
  datatype Result<+T, +E> = Success(value: T) | Failure(error: E)
}
